=== FILE: README.md ===
# Salesforce Bulk API 2.0 client: job lifecycle model

A Dafny model of the core of `custom_simple_salesforce`, a Python client for the
Salesforce Bulk API 2.0. It covers the following:

- **Connection set-up.** `Sf.connection` reads the settings, lower-cases the keys,
  dispatches on `auth_method` and maps a domain to its OAuth token URL.
- **The bulk client.** This covers request construction, the header overlay, the
  endpoint paths, the polling interval and the CSV result formats.
- **Job lifecycle.** A job is created, its data is uploaded, the upload is closed,
  the client polls until the state is final, and the results are fetched.
- **Job handles.** Each handle holds an immutable id and a cached info snapshot,
  and offers state predicates over that snapshot.

## How the model is built

The model is functional.

- **Results.** Every single-request operation returns a `Call`: the log of
  observable events (requests sent, sleeps taken) and a `Result`. The result is
  either a value or the Python exception the code would raise. The polling
  methods (`Poll.Poll`, `Poll.PollJob`, `Poll.PollJobQuery`, `Jobs.QueryWait`,
  `Jobs.IngestWait`) return the same log and result as separate out-parameters,
  together with the number of requests made (and, for the waits, the new handle).
- **Service answers.** The service's answer to a request is a parameter `Reply`:
  either accepted with a body, or rejected with a status that `raise_for_status`
  turns into an HTTP error.
- **Polling.** Polling consumes a trace of successive answers.
- **Handles.** Handles are immutable values. A call that updates the cache returns
  a new handle. A call that raises returns the old handle unchanged.

The modules follow the source:

| module | source |
|---|---|
| `Base`, `Json` | Python values, `str()`, `int()` |
| `Pairs` | dict building, where a later key wins |
| `Formats` | `types.py` |
| `Transport` | `SfBulk.__init__`, `_make_request`, `_get_final_interval` |
| `Paths` | the endpoint strings |
| `JobStates` | the final states |
| `Decode` | `csv.reader` and `csv.DictReader` results |
| `Bulk` | the non-polling `SfBulk` operations |
| `Poll` | `poll_job` and `poll_job_query` |
| `Handles`, `Jobs` | `bulk_job.py` |
| `Connection` | `client.py` |

### Where the model departs from the written code

1. **Handle delegation.** The handles in `bulk_job.py` call `self._sf_bulk.query.*`
   and `self._sf_bulk.ingest.*`, but `SfBulk` in `bulk.py` defines no `query` or
   `ingest` attribute. As written, every such handle call raises AttributeError
   (see Findings). The model's handles delegate to the flat `SfBulk` operations
   instead:

   | handle call | flat operation |
   |---|---|
   | `query.get_info` | `get_job_query_info` |
   | `query.wait` | `poll_job_query` |
   | `query.get_results` | `get_job_query_results` |
   | `ingest.get_info` | `get_job_info` |
   | `ingest.wait` | `poll_job` |
   | `ingest.upload_data` | `upload_job_data` |
   | `ingest.complete_upload` | `uploaded_job` |
   | `ingest.get_*_results` | `get_ingest_*_results` |
   | `ingest.get_unprocessed_records` | `get_ingest_unprocessed_records` |

### Notes on the written code

The model follows the code in both of these cases. They are listed because the
behaviour is easy to miss when reading the source.

1. **`has_failed_records` on a non-numeric count.** The docstring at
   `bulk_job.py:196` promises only "greater than 0". The code at `bulk_job.py:199`
   calls `int(...)`, which raises on a count that is not numeric.
   `Handles.HasFailedRecords` returns that ValueError or TypeError.

2. **Negative polling interval.** The `sleep` calls at `bulk.py:216` and
   `bulk.py:416` raise ValueError for a negative duration. The model therefore
   ends a poll with a negative interval after its first request, unless that
   first answer is already final.

## Model

| member | source | states |
|---|---|---|
| `Transport.NewBulkClient` | src/custom_simple_salesforce/bulk.py:45-49 | a new bulk client keeps the connected client's base URL and headers and stores the given polling interval and request timeout |
| `Transport.NewBulkClientDefaults` | src/custom_simple_salesforce/bulk.py:45 | without the optional arguments the client polls every 5 seconds and times requests out after 30 |
| `Transport.FinalInterval` | src/custom_simple_salesforce/bulk.py:132-144 | an explicit interval, 0 included, is used as given; only a missing one falls back to the client default |
| `Transport.Overlay` | src/custom_simple_salesforce/bulk.py:73-75 | per-call headers win over the defaults, every other default is kept, no other key appears, and no per-call headers leaves the defaults unchanged |
| `Transport.MakeRequest` | src/custom_simple_salesforce/bulk.py:73-83 | a request goes to base URL + endpoint with the overlaid headers and the client timeout, carrying the given method and body |
| `Transport.Send` | src/custom_simple_salesforce/bulk.py:77-86 | one request is logged; an accepted body is returned unchanged and a rejection becomes an HTTP error carrying its status |
| `Formats.FormatName` | src/custom_simple_salesforce/types.py:16 | every format's name is one of the allowed literals |
| `Formats.ParseFormat` | src/custom_simple_salesforce/bulk.py:106-107 | a format string is recognised exactly when it is one of `dict`, `reader`, `csv` |
| `Formats.FormatNamesRoundTrip` | src/custom_simple_salesforce/types.py:16 | name and format are mutually inverse: parsing a name returns its format, and a parsed string is that format's name |
| `Formats.ShapeDeterminesFormat` | src/custom_simple_salesforce/types.py:5-14 | each format has a result shape and no result has the shape of two formats |
| `Formats.FormatOrDefault` | src/custom_simple_salesforce/bulk.py:223 | a results getter passes a given `format_type` on unchanged and uses the records format `dict` when none is given |
| `Formats.UnsupportedFormatMessage` | src/custom_simple_salesforce/bulk.py:108-111 | the error names the rejected value in quotes and lists the allowed formats comma-separated in declaration order |
| `Paths.PathJoinsSegments` | src/custom_simple_salesforce/bulk.py:170-478 | each endpoint's path is its segments joined with '/': the service (`query` or `ingest`), then the job id, then the resource name as the service spells it |
| `Paths.RouteOfPath` | src/custom_simple_salesforce/bulk.py:170-478 | every endpoint path splits back at '/' into the endpoint it was built for, provided the id contains no '/' |
| `Paths.PathInjective` | src/custom_simple_salesforce/bulk.py:170-478 | two distinct endpoints (with slash-free ids) never share a path, so no operation can reach another's resource |
| `JobStates.StateOf` | src/custom_simple_salesforce/bulk_job.py:190 | `info.get("state")` is present exactly when the key is, and is then its value |
| `JobStates.IsTerminal` | src/custom_simple_salesforce/bulk.py:213 | a state value is final exactly when it is one of the strings `Aborted`, `JobComplete`, `Failed`; a value that is not a string never is |
| `JobStates.TerminalIsOneOfThree` | src/custom_simple_salesforce/bulk.py:213 | a snapshot is final exactly when its state equals one of `Aborted`, `JobComplete`, `Failed`, and then it is exactly one of them |
| `Decode.ZipPairs` | src/custom_simple_salesforce/bulk.py:122 | pairing a header with a row stops at the shorter of the two and keeps column positions |
| `Decode.Record` | src/custom_simple_salesforce/bulk.py:122 | a dict record's keys are exactly the header names that have a cell; a name's last occurrence supplies its value |
| `Decode.NonBlank` | src/custom_simple_salesforce/bulk.py:122 | blank rows are dropped and every non-blank row is kept as often as it occurs; all-non-blank input is returned unchanged |
| `Decode.NonBlankAppend` | src/custom_simple_salesforce/bulk.py:122 | skipping blank rows works row by row: filtering two pieces and joining them equals filtering the joined input, so the kept rows stay in their order |
| `Decode.DictRecords` | src/custom_simple_salesforce/bulk.py:121-122 | the first row is the header; there is one record per later non-blank row, in order, built from the header and that row |
| `Decode.DecodeAs` | src/custom_simple_salesforce/bulk.py:117-126 | `dict` gives records, `reader` every parsed row including the header, `csv` the text unchanged; the result always has the format's shape |
| `Decode.DecodedShapeNamesFormat` | src/custom_simple_salesforce/bulk.py:120-126 | a decoded result has the shape of format g exactly when g is the format it was decoded with |
| `Decode.RecordHoldsEveryField` | src/custom_simple_salesforce/bulk.py:122 | on a full-width row every header name is a key, mapped to the cell of a column with that name that no later column repeats |
| `Decode.LastIndexOf` | src/custom_simple_salesforce/bulk.py:122 | the position that wins for a repeated header name is its last occurrence |
| `Decode.OneRecordExample` | src/custom_simple_salesforce/bulk.py:121-122 | a header row, a blank line and one data row decode to the single record `{Name: Acme, Industry: Tech}`: the blank line is skipped |
| `Bulk.InfoRequest` | src/custom_simple_salesforce/bulk.py:188-191 | an info fetch is a GET of base URL + endpoint with the default headers and no body |
| `Bulk.JsonPost` | src/custom_simple_salesforce/bulk.py:168-175 | a JSON POST goes to base URL + endpoint with the default headers |
| `Bulk.QueryOperation` | src/custom_simple_salesforce/bulk.py:164-166 | the operation is `queryAll` exactly when deleted records are included, `query` exactly when not |
| `Bulk.CreateJobQuery` | src/custom_simple_salesforce/bulk.py:147-176 | one POST to `query` whose body holds exactly the operation and the SOQL text; the handle's id and cache come from the reply, a reply without `id` raises KeyError, a rejection an HTTP error |
| `Bulk.GetJobQueryInfo` | src/custom_simple_salesforce/bulk.py:178-192 | one GET of `query/{id}`; the snapshot is returned unchanged |
| `Bulk.GetCsvResults` | src/custom_simple_salesforce/bulk.py:88-130 | an unsupported format raises ValueError before any request; otherwise one GET, and the result exists exactly when the format is allowed and the service answered, with that format's shape and content |
| `Bulk.GetJobQueryResults` | src/custom_simple_salesforce/bulk.py:220-235 | query results are fetched from `query/{id}/results` with the caller's format; without one, a `dict` fetch that yields records exactly when the service answers |
| `Bulk.IngestPayload` | src/custom_simple_salesforce/bulk.py:330-336 | the payload always holds object and operation, and holds `externalIdFieldName` exactly when a non-empty external id field is given |
| `Bulk.CreateJob` | src/custom_simple_salesforce/bulk.py:303-344 | an upsert without a non-empty external id field raises ValueError before any request; otherwise one POST of the payload to `ingest`, and a handle exactly when the reply is accepted and has an `id` |
| `Bulk.CreateJobInsert` | src/custom_simple_salesforce/bulk.py:238-248 | the creation sends exactly object and operation `insert` |
| `Bulk.CreateJobUpdate` | src/custom_simple_salesforce/bulk.py:250-260 | the creation sends exactly object and operation `update` |
| `Bulk.CreateJobUpsert` | src/custom_simple_salesforce/bulk.py:262-277 | an empty external id field is refused locally; otherwise the creation sends object, `upsert` and the external id field |
| `Bulk.CreateJobDelete` | src/custom_simple_salesforce/bulk.py:279-289 | the creation sends exactly object and operation `delete` |
| `Bulk.CreateJobHardDelete` | src/custom_simple_salesforce/bulk.py:291-301 | the creation sends exactly object and operation `hardDelete` |
| `Bulk.UploadJobData` | src/custom_simple_salesforce/bulk.py:346-359 | one PUT of the CSV text to `ingest/{id}/batches`; Content-Type is `text/csv` for this request, every other default header is kept |
| `Bulk.UploadedJob` | src/custom_simple_salesforce/bulk.py:361-375 | one PATCH of `ingest/{id}` with the body `{"state": "UploadComplete"}` and the default headers |
| `Bulk.GetJobInfo` | src/custom_simple_salesforce/bulk.py:377-391 | one GET of `ingest/{id}`; the snapshot is returned unchanged |
| `Bulk.GetIngestSuccessfulResults` | src/custom_simple_salesforce/bulk.py:420-437 | successful records are fetched from `ingest/{id}/successfulResults`; with no format given, `dict` records |
| `Bulk.GetIngestFailedResults` | src/custom_simple_salesforce/bulk.py:439-456 | failed records are fetched from `ingest/{id}/failedResults`; with no format given, `dict` records |
| `Bulk.GetIngestUnprocessedRecords` | src/custom_simple_salesforce/bulk.py:458-478 | unprocessed records are fetched from `ingest/{id}/unprocessedrecords` (all lower case); with no format given, `dict` records |
| `Poll.Stops` | src/custom_simple_salesforce/bulk.py:410-418 | the loop goes on exactly when the answer is accepted, has a `state`, and that state is none of the three final ones; a rejection or a missing `state` ends it by raising |
| `Poll.StopResult` | src/custom_simple_salesforce/bulk.py:410-418 | the loop returns the final snapshot; a rejection raises an HTTP error and a snapshot without `state` raises KeyError |
| `Poll.Poll` | src/custom_simple_salesforce/bulk.py:410-418 | requests and sleeps alternate; the loop stops at the first final answer (or at once when the sleep is refused) and returns what that answer gives |
| `Poll.PollJob` | src/custom_simple_salesforce/bulk.py:393-418 | polling an ingest job repeatedly fetches `ingest/{id}` |
| `Poll.PollJobQuery` | src/custom_simple_salesforce/bulk.py:194-218 | polling a query job repeatedly fetches `query/{id}` |
| `Poll.AlternatingCounts` | src/custom_simple_salesforce/bulk.py:410-416 | an alternating log with p requests holds exactly p requests and p - 1 sleeps |
| `Poll.FirstStop` | src/custom_simple_salesforce/bulk.py:413-414 | the index of the first answer that ends the loop |
| `Poll.PollEndsAtFirstStop` | src/custom_simple_salesforce/bulk.py:410-418 | with a non-negative interval the loop ends exactly at the first answer that stops it, and returns what that answer gives |
| `Poll.PollLogCounts` | src/custom_simple_salesforce/bulk.py:410-416 | a poll logs one request per poll and one sleep between consecutive polls, and its last event is a request |
| `Poll.PollCounts` | src/custom_simple_salesforce/bulk.py:410-418 | with a non-negative interval and the first final answer at k, the poll sends k + 1 requests, sleeps k times and returns what answer k gives |
| `Poll.NegativeIntervalStopsAtOnce` | src/custom_simple_salesforce/bulk.py:416 | a negative interval allows exactly one request, and a non-final first answer ends in ValueError |
| `Poll.PolledIsDeterministic` | src/custom_simple_salesforce/bulk.py:410-418 | the same answers always yield the same log, request count and result |
| `Handles.NewJobBase` | src/custom_simple_salesforce/bulk_job.py:39-41 | a handle exists exactly when the snapshot has an `id`; its id is that entry and its cache the whole snapshot |
| `Handles.WithInfo` | src/custom_simple_salesforce/bulk_job.py:81 | updating the cache replaces the snapshot and keeps the id and client |
| `Handles.IsSuccessful` | src/custom_simple_salesforce/bulk_job.py:183-190 | true exactly when the cached snapshot has a `state` equal to the string `JobComplete`; false without one |
| `Handles.IsFailed` | src/custom_simple_salesforce/bulk_job.py:201-208 | true exactly when the cached `state` is the string `Failed` |
| `Handles.IsAborted` | src/custom_simple_salesforce/bulk_job.py:210-217 | true exactly when the cached `state` is the string `Aborted` |
| `Handles.StatePredicatesPartition` | src/custom_simple_salesforce/bulk_job.py:183-217 | the success, failure and abort predicates exclude one another, none holds without a state, and one holds exactly when the cached state is final |
| `Handles.HasFailedRecords` | src/custom_simple_salesforce/bulk_job.py:192-199 | an absent count means no failed records; otherwise true exactly when the count converts to a positive int, and an unconvertible count raises |
| `Handles.HasFailedRecordsOfCount` | src/custom_simple_salesforce/bulk_job.py:199 | a count given as a JSON int or as its decimal text (at most 4300 digits, as any decoded JSON int is) yields the same answer: whether it is positive |
| `Json.IntToString` | src/custom_simple_salesforce/bulk_job.py:199 | the decimal text of an int starts with '-' exactly when it is negative, ends in a digit, and has no leading zero: `0` is written `0`, and the first digit is never `0` otherwise |
| `Json.ParseIntRoundTrip` | src/custom_simple_salesforce/bulk_job.py:199 | `int()` reads back the decimal text of every int of at most 4300 digits, i.e. below 10^4300 in absolute value |
| `Json.ToInt` | src/custom_simple_salesforce/bulk_job.py:199 | ints pass through, `True` and `False` give 1 and 0, text converts exactly when it parses and then to the parsed value, None and other values raise TypeError, and every failure is a ValueError or TypeError |
| `Json.ToIntOfStr` | src/custom_simple_salesforce/bulk_job.py:199 | `int(str(n)) == n` for every JSON int, which is at most 4300 digits long |
| `Json.ParseInt` | src/custom_simple_salesforce/bulk_job.py:199 | text parses exactly when, stripped of the ASCII whitespace `int()` skips (space and `\t\n\v\f\r`), it is a run of one to 4300 decimal digits with an optional sign; the value is the digits' value, negated after '-' |
| `Json.SeparatorIsNotWhitespace` | src/custom_simple_salesforce/bulk_job.py:199 | `int(" 5\n")` is 5, while `int("\x1c5")` raises: the information separators are not skipped |
| `Json.NatToString` | src/custom_simple_salesforce/bulk_job.py:199 | the decimal text of a natural number is all digits, starts with `0` exactly for 0, and is then just `0` |
| `Json.DigitsValueOfNatToString` | src/custom_simple_salesforce/bulk_job.py:199 | the decimal digits of a natural number read back as that number |
| `Pairs.FromPairs` | src/custom_simple_salesforce/client.py:156 | building a dict from pairs: the keys are exactly the pairs' keys, and each key maps to its last pair's value |
| `Jobs.QueryGetInfo` | src/custom_simple_salesforce/bulk_job.py:72-82 | the snapshot fetched from `query/{id}` is returned and replaces the cache; on an error the handle is unchanged |
| `Jobs.QueryGetInfoAsWritten` | src/custom_simple_salesforce/bulk_job.py:81 | as written, the lookup of `query` on the client raises AttributeError before any request |
| `Jobs.QueryGetInfoAsWrittenFails` | src/custom_simple_salesforce/bulk_job.py:81 | for an answered job, the as-written call fails where the delegating call returns and caches the snapshot |
| `Jobs.QueryWait` | src/custom_simple_salesforce/bulk_job.py:84-99 | waiting polls `query/{id}`; on success the final snapshot is cached and its state is final; on an error the handle is unchanged |
| `Jobs.QueryGetResults` | src/custom_simple_salesforce/bulk_job.py:101-114 | the handle's results are those of `query/{id}/results` in the requested format, `dict` when none is given |
| `Jobs.IngestUploadData` | src/custom_simple_salesforce/bulk_job.py:135-142 | the upload goes to this job's `ingest/{id}/batches` |
| `Jobs.IngestCompleteUpload` | src/custom_simple_salesforce/bulk_job.py:144-152 | closing the upload patches this job's `ingest/{id}` |
| `Jobs.IngestGetInfo` | src/custom_simple_salesforce/bulk_job.py:154-164 | the snapshot fetched from `ingest/{id}` is returned and replaces the cache; on an error the handle is unchanged |
| `Jobs.IngestGetInfoIdempotent` | src/custom_simple_salesforce/bulk_job.py:154-164 | refreshing twice against an unchanged answer gives the same handle and snapshot as refreshing once |
| `Jobs.IngestWait` | src/custom_simple_salesforce/bulk_job.py:166-181 | waiting polls `ingest/{id}`; on success the final snapshot is cached and exactly one state predicate holds |
| `Jobs.IngestGetSuccessfulResults` | src/custom_simple_salesforce/bulk_job.py:219-235 | the handle's successful records are those of `ingest/{id}/successfulResults`, in `dict` form when no format is given |
| `Jobs.IngestGetFailedResults` | src/custom_simple_salesforce/bulk_job.py:237-255 | the handle's failed records are those of `ingest/{id}/failedResults`, in `dict` form when no format is given |
| `Jobs.IngestGetUnprocessedRecords` | src/custom_simple_salesforce/bulk_job.py:257-276 | the handle's unprocessed records are those of `ingest/{id}/unprocessedrecords`, in `dict` form when no format is given |
| `Jobs.QueryRequestsTargetOwnJob` | src/custom_simple_salesforce/bulk_job.py:72-114 | a query handle's info and results requests go to the base URL followed by a path that routes to that handle's own job |
| `Jobs.IngestRequestsTargetOwnJob` | src/custom_simple_salesforce/bulk_job.py:135-164 | an ingest handle's upload goes to its own job's batches, and closing the upload and fetching info go to its own job |
| `Jobs.IngestResultsTargetOwnJob` | src/custom_simple_salesforce/bulk_job.py:219-276 | each of an ingest handle's three result fetches reaches its own resource of that handle's job |
| `Connection.LowerChar` | src/custom_simple_salesforce/client.py:156 | ASCII capitals move to lower case and every other character is kept |
| `Connection.Lower` | src/custom_simple_salesforce/client.py:156 | lower-casing keeps the length and maps each character on its own |
| `Connection.LowerIdempotent` | src/custom_simple_salesforce/client.py:156 | lower-casing an already lower-cased key changes nothing |
| `Connection.LowerKeys` | src/custom_simple_salesforce/client.py:156 | the config's keys are exactly the lower-cased setting names |
| `Connection.LowerKeysLastWins` | src/custom_simple_salesforce/client.py:156 | under a lower-cased key, the value is that of the last setting whose name lower-cases to it |
| `Connection.ConfigEntries` | src/custom_simple_salesforce/client.py:143-154 | a dict is used as given; YAML loading to a mapping gives its entries and to nothing an empty config; YAML loading to anything else raises AttributeError on `.items`; a YAML syntax error raises ValueError carrying the parser's message; any other settings type raises TypeError |
| `Connection.SelectAuthMethod` | src/custom_simple_salesforce/client.py:158-168 | `password` and `client_credentials` select their path exactly when given; anything else raises ValueError naming the value, or `None` when absent |
| `Connection.ValidatedDomain` | src/custom_simple_salesforce/client.py:81-90 | validation yields the domain exactly when it succeeds; both failure kinds surface as ValueError |
| `Connection.TokenEndpoint` | src/custom_simple_salesforce/client.py:92-98 | `login` and `test` map to their fixed hosts, any other domain to `https://{domain}.my.salesforce.com` |
| `Connection.TokenUrl` | src/custom_simple_salesforce/client.py:92-101 | `login` and `test` get `https://login.salesforce.com/services/oauth2/token` and `https://test.salesforce.com/services/oauth2/token`; any other domain gets `https://{domain}.my.salesforce.com/services/oauth2/token` |
| `Connection.TokenUrlInjective` | src/custom_simple_salesforce/client.py:92-101 | distinct domains never share a token URL |
| `Connection.TokenEndpointInjective` | src/custom_simple_salesforce/client.py:92-98 | distinct domains never share a token endpoint |
| `Connection.Connect` | src/custom_simple_salesforce/client.py:120-168 | an unreadable config or an unknown auth method propagates its error unchanged; with a known method, a login results exactly when validation succeeds and a failed validation is a ValueError; client credentials carry the validated domain's token URL |
| `Connection.ConnectIgnoresKeyCase` | src/custom_simple_salesforce/client.py:156 | settings whose names were lower-cased beforehand connect exactly as the original settings do, whatever the outcome |
| `Connection.UpperCaseAuthMethodAccepted` | src/custom_simple_salesforce/client.py:156-162 | settings naming `AUTH_METHOD: password` in capitals take the password path |

## Findings

| source | as written | input that shows it | evidently intended | confidence | as-written member | corrected member |
|---|---|---|---|---|---|---|
| src/custom_simple_salesforce/bulk_job.py:81 | handle operations call `self._sf_bulk.query.*` and `self._sf_bulk.ingest.*` (lines 81, 98, 114, 142, 152, 163, 180, 232, 252, 273), but `SfBulk` has no `query` or `ingest` attribute | any handle from `create_job_query`, then `get_info()`: AttributeError before any request | delegate to the flat operations `get_job_query_info`, `poll_job_query`, `get_job_info`, … | high, not executed | `Jobs.QueryGetInfoAsWritten` | `Jobs.QueryGetInfo` |

## Left out

- HTTP transport: `requests.request`, status handling beyond accepted/rejected, response encoding and the `requests.post` token call in `_connect_with_client_credentials` are not modelled. The server's answers are parameters, and the client-credentials path ends at the token URL.
- `time.sleep`: a sleep is an event in the log. Its only other effect modelled is the ValueError for a negative duration.
- The base `Salesforce` constructor, the pydantic settings classes and `yaml.safe_load` belong to other libraries. Validation and YAML loading are function parameters (`Validation`, `YamlLoad`). The `api_version` default and the `Literal` domain restriction of password settings live in those oracles.
- `api.py`, `__init__.py` and the sample scripts are not part of this model.
- Decode.Record: the CSV grammar (quoting, embedded newlines) is the parameter `parse`. `DictReader`'s `restkey`/`restval` handling of rows longer or shorter than the header is not modelled: extra cells are dropped and missing ones are absent.
- Json.ParseInt: accepts ASCII whitespace (space and `\t\n\v\f\r`), an optional sign and ASCII digits only. Python's `int()` also accepts underscores between digits and Unicode digits and spaces, so the model accepts less than `int()`, never more. The 4300-digit limit is Python's default and is modelled; a process that raises it with `sys.set_int_max_str_digits` is not.
- Json.IntToString: Python's `str()` raises ValueError on an int of more than 4300 digits; the model renders it anyway. No such int comes out of a JSON reply, because decoding applies the same limit, and the round-trip lemmas require at most 4300 digits.
- Json.ToInt: a JSON float count (`int(2.5)`) is not modelled. Such values are `VOther` and raise TypeError here.
- Connection.Lower, Connection.LowerChar: lower-case ASCII letters only, not the rest of Unicode. Non-string YAML keys (`k.lower()` on an int) are not modelled.
- JSON key order and the UTF-8 encoding of the uploaded CSV are not modelled. A body is a map, and the upload is the text.
- Replies whose JSON is not an object (a list, a string) are not modelled. Every info reply is a `JsonObject`.
- Poll.Poll: the loop in the source has no bound. The model requires the trace to hold an answer that ends the loop whenever the interval is non-negative, so a job that never reaches a final state is not modelled.
- Jobs.IdText: a job id is formatted with `str()` when it is spliced into a path. Ids containing '/' are outside `Paths.RouteOfPath` and `Paths.PathInjective`.
- Jobs.QueryGetInfoAsWritten: only `get_info` of the query handle is modelled as written. The other nine namespaced calls fail the same way and are modelled only in corrected form.

=== FILE: base.dfy ===
/** Option, Result and the exceptions the bulk client raises itself or lets
    through from its collaborators. */
module Base {

  /** Python's `X | None`: a value that may be absent. */
  datatype Option<+T> = None | Some(value: T)

  /** An exception surfaced to the caller. The client never catches one of its
      own: every error below propagates unchanged to whoever made the call. */
  datatype Error =
    | ValueError(message: string)
    | TypeError(message: string)
    | KeyError(key: string)
    | AttributeError(name: string)
      /** `raise_for_status` on a reply the server rejected. */
    | HttpError(status: int)

  /** The outcome of one call: a value, or the exception it raised. */
  datatype Result<+T> = Ok(value: T) | Err(error: Error)
}

=== FILE: bulk.dfy ===
/** The job operations of `SfBulk` other than polling: creating query and
    ingest jobs, uploading data, closing an upload, fetching job info and
    fetching results. Each issues at most one request. */
module Bulk {
  import opened Base
  import opened Json
  import opened Transport
  import opened Formats
  import opened Paths
  import opened Handles
  import Decode

  /** A GET of `endpoint` with the default headers. */
  function InfoRequest(c: BulkClient, endpoint: string): (r: Request)
    ensures r.verb == GET && r.url == c.bulk2Url + endpoint && r.headers == c.headers && r.body == NoBody
  {
    MakeRequest(c, GET, endpoint, map[], NoBody)
  }

  /** A POST of a JSON object with the default headers. */
  function JsonPost(c: BulkClient, endpoint: string, fields: map<string, string>): (r: Request)
    ensures r.verb == POST && r.url == c.bulk2Url + endpoint && r.headers == c.headers && r.body == JsonBody(fields)
  {
    MakeRequest(c, POST, endpoint, map[], JsonBody(fields))
  }

  // Query jobs

  /** The operation a query job is created with. */
  function QueryOperation(includeAll: bool): (op: string)
    ensures op == "queryAll" <==> includeAll
    ensures op == "query" <==> !includeAll
  {
    if includeAll then "query" + "All" else "query"
  }

  /** `create_job_query`: one POST to `query` carrying the operation and the
      SOQL text; the created job's snapshot becomes a query handle. */
  function CreateJobQuery(c: BulkClient, query: string, includeAll: bool, reply: Reply<JsonObject>): (r: Call<QueryJob>)
    ensures |r.log| == 1 && r.log[0].Sent?
    ensures r.log[0].request.verb == POST && r.log[0].request.url == c.bulk2Url + "query"
    ensures r.log[0].request.headers == c.headers
    ensures r.log[0].request.body.JsonBody?
    ensures r.log[0].request.body.fields.Keys == {"operation", "query"}
    ensures r.log[0].request.body.fields["query"] == query
    ensures r.log[0].request.body.fields["operation"] == "queryAll" <==> includeAll
    ensures r.log[0].request.body.fields["operation"] == "query" <==> !includeAll
    ensures reply.Rejected? ==> r.result == Err(HttpError(reply.status))
    ensures reply.Accepted? && "id" !in reply.body ==> r.result == Err(KeyError("id"))
    ensures r.result.Ok? <==> reply.Accepted? && "id" in reply.body
    ensures r.result.Ok? ==> r.result.value.base == JobBase(c, reply.body["id"], reply.body)
  {
    var req := JsonPost(c, Path(QueryJobs), map["operation" := QueryOperation(includeAll), "query" := query]);
    var sent := Send(req, reply);
    match sent.result
    case Err(e) => Call(sent.log, Err(e))
    case Ok(info) =>
      match NewJobBase(c, info)
      case Ok(b) => Call(sent.log, Ok(QueryJob(b)))
      case Err(e) => Call(sent.log, Err(e))
  }

  /** `get_job_query_info`: one GET of `query/{id}`, returning the snapshot the
      service sent, unchanged. */
  function GetJobQueryInfo(c: BulkClient, id: string, reply: Reply<JsonObject>): (r: Call<JsonObject>)
    ensures r.log == [Sent(InfoRequest(c, "query/" + id))]
    ensures reply.Accepted? ==> r.result == Ok(reply.body)
    ensures reply.Rejected? ==> r.result == Err(HttpError(reply.status))
  {
    Send(InfoRequest(c, Path(QueryInfo(id))), reply)
  }

  /** `_get_csv_results`: the format is checked first, so an unsupported one
      raises ValueError naming it and the allowed list without any request;
      otherwise one GET of `endpoint`, decoded into the format's shape. */
  function GetCsvResults(c: BulkClient, endpoint: string, format: string, reply: Reply<string>,
                         parse: string -> seq<seq<string>>): (r: Call<ResultSet>)
    ensures format !in AllowedFormats ==> r.log == [] && r.result == Err(ValueError(UnsupportedFormatMessage(format)))
    ensures format in AllowedFormats ==> r.log == [Sent(InfoRequest(c, endpoint))]
    ensures format in AllowedFormats && reply.Rejected? ==> r.result == Err(HttpError(reply.status))
    ensures r.result.Ok? <==> format in AllowedFormats && reply.Accepted?
    ensures r.result.Ok? ==> HasShape(r.result.value, ParseFormat(format).value)
    ensures r.result.Ok? && format == "csv" ==> r.result.value == Raw(reply.body)
    ensures r.result.Ok? && format == "reader" ==> r.result.value == Rows(parse(reply.body))
    ensures r.result.Ok? && format == "dict" ==> r.result.value == Records(Decode.DictRecords(parse(reply.body)))
  {
    match ParseFormat(format)
    case None => Call([], Err(ValueError(UnsupportedFormatMessage(format))))
    case Some(f) =>
      var sent := Send(InfoRequest(c, endpoint), reply);
      match sent.result
      case Err(e) => Call(sent.log, Err(e))
      case Ok(text) => Call(sent.log, Ok(Decode.DecodeAs(f, text, parse)))
  }

  /** `get_job_query_results`: the results of `query/{id}/results`. */
  function GetJobQueryResults(c: BulkClient, id: string, format: Option<string>, reply: Reply<string>,
                              parse: string -> seq<seq<string>>): (r: Call<ResultSet>)
    ensures r == GetCsvResults(c, "query/" + id + "/results", FormatOrDefault(format), reply, parse)
    ensures format.None? ==> (r.result.Ok? <==> reply.Accepted?)
    ensures format.None? && reply.Accepted? ==> r.result == Ok(Records(Decode.DictRecords(parse(reply.body))))
  {
    GetCsvResults(c, Path(QueryResults(id)), FormatOrDefault(format), reply, parse)
  }

  // Ingest jobs

  /** Python truthiness of an optional string: present and non-empty. */
  predicate Truthy(s: Option<string>) {
    s.Some? && s.value != ""
  }

  /** The JSON body of an ingest-job creation: object and operation always,
      `externalIdFieldName` exactly when an external id field is given. */
  function IngestPayload(objectName: string, operation: string, externalIdField: Option<string>): (p: map<string, string>)
    ensures "object" in p && p["object"] == objectName
    ensures "operation" in p && p["operation"] == operation
    ensures "externalIdFieldName" in p <==> Truthy(externalIdField)
    ensures Truthy(externalIdField) ==> p["externalIdFieldName"] == externalIdField.value
    ensures p.Keys <= {"object", "operation", "externalIdFieldName"}
  {
    var base := map["object" := objectName, "operation" := operation];
    if Truthy(externalIdField) then base["externalIdFieldName" := externalIdField.value] else base
  }

  const UpsertNeedsExternalId: string := "The 'external_id_field' is required for the 'upsert' operation."

  /** `create_job`: an upsert without an external id field raises ValueError
      before any request; otherwise one POST to `ingest` with the payload, and
      the created job's snapshot becomes an ingest handle. */
  function CreateJob(c: BulkClient, objectName: string, operation: string, externalIdField: Option<string>,
                     reply: Reply<JsonObject>): (r: Call<IngestJob>)
    ensures operation == "upsert" && !Truthy(externalIdField) ==>
              r.log == [] && r.result == Err(ValueError(UpsertNeedsExternalId))
    ensures !(operation == "upsert" && !Truthy(externalIdField)) ==>
              r.log == [Sent(JsonPost(c, "ingest", IngestPayload(objectName, operation, externalIdField)))]
    ensures r.result.Ok? <==> !(operation == "upsert" && !Truthy(externalIdField)) && reply.Accepted? && "id" in reply.body
    ensures r.result.Ok? ==> r.result.value.base == JobBase(c, reply.body["id"], reply.body)
    ensures r.log != [] && reply.Rejected? ==> r.result == Err(HttpError(reply.status))
    ensures r.log != [] && reply.Accepted? && "id" !in reply.body ==> r.result == Err(KeyError("id"))
  {
    if operation == "upsert" && !Truthy(externalIdField) then
      Call([], Err(ValueError(UpsertNeedsExternalId)))
    else
      var sent := Send(JsonPost(c, Path(IngestJobs), IngestPayload(objectName, operation, externalIdField)), reply);
      match sent.result
      case Err(e) => Call(sent.log, Err(e))
      case Ok(info) =>
        match NewJobBase(c, info)
        case Ok(b) => Call(sent.log, Ok(IngestJob(b)))
        case Err(e) => Call(sent.log, Err(e))
  }

  /** The operation and external id field an ingest creation sent, if any. */
  function SentPayload(log: seq<Event>): Option<map<string, string>> {
    if |log| == 1 && log[0].Sent? && log[0].request.body.JsonBody? then Some(log[0].request.body.fields) else None
  }

  /** `create_job_insert`: operation `insert`, no external id field. */
  function CreateJobInsert(c: BulkClient, objectName: string, reply: Reply<JsonObject>): (r: Call<IngestJob>)
    ensures SentPayload(r.log) == Some(map["object" := objectName, "operation" := "insert"])
  {
    CreateJob(c, objectName, "insert", None, reply)
  }

  /** `create_job_update`: operation `update`, no external id field. */
  function CreateJobUpdate(c: BulkClient, objectName: string, reply: Reply<JsonObject>): (r: Call<IngestJob>)
    ensures SentPayload(r.log) == Some(map["object" := objectName, "operation" := "update"])
  {
    CreateJob(c, objectName, "update", None, reply)
  }

  /** `create_job_upsert`: operation `upsert` with the given external id field,
      refused locally when that field is empty. */
  function CreateJobUpsert(c: BulkClient, objectName: string, externalIdField: string, reply: Reply<JsonObject>): (r: Call<IngestJob>)
    ensures externalIdField == "" ==> r.log == [] && r.result == Err(ValueError(UpsertNeedsExternalId))
    ensures externalIdField != "" ==>
              SentPayload(r.log) == Some(map["object" := objectName, "operation" := "upsert", "externalIdFieldName" := externalIdField])
  {
    CreateJob(c, objectName, "upsert", Some(externalIdField), reply)
  }

  /** `create_job_delete`: operation `delete`, no external id field. */
  function CreateJobDelete(c: BulkClient, objectName: string, reply: Reply<JsonObject>): (r: Call<IngestJob>)
    ensures SentPayload(r.log) == Some(map["object" := objectName, "operation" := "delete"])
  {
    CreateJob(c, objectName, "delete", None, reply)
  }

  /** `create_job_hard_delete`: operation `hardDelete`, no external id field. */
  function CreateJobHardDelete(c: BulkClient, objectName: string, reply: Reply<JsonObject>): (r: Call<IngestJob>)
    ensures SentPayload(r.log) == Some(map["object" := objectName, "operation" := "hardDelete"])
  {
    CreateJob(c, objectName, "hardDelete", None, reply)
  }

  /** `upload_job_data`: one PUT of the CSV text to `ingest/{id}/batches`, the
      content type overridden to `text/csv` for this request only. */
  function UploadJobData(c: BulkClient, id: string, csvData: string, reply: Reply<()>): (r: Call<()>)
    ensures |r.log| == 1 && r.log[0].Sent?
    ensures r.log[0].request.verb == PUT
    ensures r.log[0].request.url == c.bulk2Url + "ingest/" + id + "/batches"
    ensures r.log[0].request.body == CsvBody(csvData)
    ensures r.log[0].request.headers.Keys == c.headers.Keys + {"Content-Type"}
    ensures r.log[0].request.headers["Content-Type"] == "text/csv"
    ensures forall k :: k in c.headers && k != "Content-Type" ==> r.log[0].request.headers[k] == c.headers[k]
    ensures reply.Rejected? <==> r.result.Err?
  {
    Send(MakeRequest(c, PUT, Path(IngestBatches(id)), map["Content-Type" := "text/csv"], CsvBody(csvData)), reply)
  }

  /** `uploaded_job`: one PATCH of `ingest/{id}` moving the job to
      `UploadComplete`. */
  function UploadedJob(c: BulkClient, id: string, reply: Reply<()>): (r: Call<()>)
    ensures |r.log| == 1 && r.log[0].Sent?
    ensures r.log[0].request.verb == PATCH && r.log[0].request.url == c.bulk2Url + "ingest/" + id
    ensures r.log[0].request.headers == c.headers
    ensures r.log[0].request.body == JsonBody(map["state" := "UploadComplete"])
    ensures reply.Rejected? <==> r.result.Err?
  {
    Send(MakeRequest(c, PATCH, Path(IngestInfo(id)), map[], JsonBody(map["state" := "UploadComplete"])), reply)
  }

  /** `get_job_info`: one GET of `ingest/{id}`, returning the snapshot the
      service sent, unchanged. */
  function GetJobInfo(c: BulkClient, id: string, reply: Reply<JsonObject>): (r: Call<JsonObject>)
    ensures r.log == [Sent(InfoRequest(c, "ingest/" + id))]
    ensures reply.Accepted? ==> r.result == Ok(reply.body)
    ensures reply.Rejected? ==> r.result == Err(HttpError(reply.status))
  {
    Send(InfoRequest(c, Path(IngestInfo(id))), reply)
  }

  /** `get_ingest_successful_results`: the results of
      `ingest/{id}/successfulResults`. */
  function GetIngestSuccessfulResults(c: BulkClient, id: string, format: Option<string>, reply: Reply<string>,
                                      parse: string -> seq<seq<string>>): (r: Call<ResultSet>)
    ensures r == GetCsvResults(c, "ingest/" + id + "/successfulResults", FormatOrDefault(format), reply, parse)
    ensures format.None? ==> (r.result.Ok? <==> reply.Accepted?)
    ensures format.None? && reply.Accepted? ==> r.result == Ok(Records(Decode.DictRecords(parse(reply.body))))
  {
    GetCsvResults(c, Path(SuccessfulResults(id)), FormatOrDefault(format), reply, parse)
  }

  /** `get_ingest_failed_results`: the results of `ingest/{id}/failedResults`. */
  function GetIngestFailedResults(c: BulkClient, id: string, format: Option<string>, reply: Reply<string>,
                                  parse: string -> seq<seq<string>>): (r: Call<ResultSet>)
    ensures r == GetCsvResults(c, "ingest/" + id + "/failedResults", FormatOrDefault(format), reply, parse)
    ensures format.None? ==> (r.result.Ok? <==> reply.Accepted?)
    ensures format.None? && reply.Accepted? ==> r.result == Ok(Records(Decode.DictRecords(parse(reply.body))))
  {
    GetCsvResults(c, Path(FailedResults(id)), FormatOrDefault(format), reply, parse)
  }

  /** `get_ingest_unprocessed_records`: the results of
      `ingest/{id}/unprocessedrecords`. */
  function GetIngestUnprocessedRecords(c: BulkClient, id: string, format: Option<string>, reply: Reply<string>,
                                       parse: string -> seq<seq<string>>): (r: Call<ResultSet>)
    ensures r == GetCsvResults(c, "ingest/" + id + "/unprocessedrecords", FormatOrDefault(format), reply, parse)
    ensures format.None? ==> (r.result.Ok? <==> reply.Accepted?)
    ensures format.None? && reply.Accepted? ==> r.result == Ok(Records(Decode.DictRecords(parse(reply.body))))
  {
    GetCsvResults(c, Path(UnprocessedRecords(id)), FormatOrDefault(format), reply, parse)
  }
}

=== FILE: connection.dfy ===
/** `Sf.connection`: reading the settings, lower-casing their keys, choosing
    the authentication path by `auth_method`, and, for client credentials,
    the OAuth token URL of the configured domain. YAML loading and settings
    validation belong to other libraries and are parameters here. */
module Connection {
  import opened Base
  import opened Json
  import Pairs

  /** What a caller may pass as settings: YAML text, a dict (its entries in
      insertion order), or anything else. */
  datatype Settings = YamlText(text: string) | Mapping(entries: seq<(string, Value)>) | OtherSettings

  /** What `yaml.safe_load` made of the text: a syntax error, a falsy value
      (None, an empty document or mapping), a mapping, or some other truthy
      value such as a bare string or a list. */
  datatype YamlLoad =
    | YamlSyntaxError(detail: string)
    | LoadedFalsy
    | LoadedMapping(entries: seq<(string, Value)>)
    | LoadedOther

  datatype AuthMethod = Password | ClientCredentials

  /** What pydantic's `model_validate` made of the config for one method: the
      validated domain, a ValidationError, or a ValueError/TypeError raised
      while parsing. */
  datatype Validation = Validated(domain: string) | ValidationFailed(detail: string) | ParsingFailed(detail: string)

  /** Where the connection goes next: a password login, or a token request to
      `tokenUrl`; both carry the lower-cased config they were given. */
  datatype Login =
    | PasswordLogin(config: map<string, Value>)
    | ClientCredentialsLogin(tokenUrl: string, config: map<string, Value>)

  const NotSettings: string := "Settings must be provided as a JSON string or a dictionary."

  /** Python's `str.lower()` on an ASCII letter. */
  function LowerChar(ch: char): (r: char)
    ensures 'A' <= ch <= 'Z' ==> r as int == ch as int + 32
    ensures !('A' <= ch <= 'Z') ==> r == ch
  {
    if 'A' <= ch <= 'Z' then (ch as int + 32) as char else ch
  }

  function Lower(s: string): (r: string)
    ensures |r| == |s|
    ensures forall i :: 0 <= i < |s| ==> r[i] == LowerChar(s[i])
  {
    seq(|s|, i requires 0 <= i < |s| => LowerChar(s[i]))
  }

  /** Lower-casing twice changes nothing more than lower-casing once. */
  lemma LowerIdempotent(s: string)
    ensures Lower(Lower(s)) == Lower(s)
  {
  }

  /** `{k.lower(): v for k, v in config.items()}`: every key lower-cased, every
      value untouched; when two keys lower-case alike the later entry wins. */
  function LowerKeys(entries: seq<(string, Value)>): (config: map<string, Value>)
    ensures config.Keys == set i | 0 <= i < |entries| :: Lower(entries[i].0)
  {
    var lowered := seq(|entries|, i requires 0 <= i < |entries| => (Lower(entries[i].0), entries[i].1));
    ghost var keys := set i | 0 <= i < |entries| :: Lower(entries[i].0);
    assert (set i | 0 <= i < |lowered| :: lowered[i].0) == keys by {
      forall k | k in keys
        ensures k in set i | 0 <= i < |lowered| :: lowered[i].0
      {
        var i :| 0 <= i < |entries| && k == Lower(entries[i].0);
        assert lowered[i].0 == k;
      }
    }
    Pairs.FromPairs(lowered)
  }

  /** The last entry whose key lower-cases to `key` decides the value seen under
      `key`; in particular `AUTH_METHOD` is read as `auth_method`. */
  lemma LowerKeysLastWins(entries: seq<(string, Value)>, i: int)
    requires 0 <= i < |entries|
    requires forall j :: i < j < |entries| ==> Lower(entries[j].0) != Lower(entries[i].0)
    ensures Lower(entries[i].0) in LowerKeys(entries)
    ensures LowerKeys(entries)[Lower(entries[i].0)] == entries[i].1
  {
    var lowered := seq(|entries|, j requires 0 <= j < |entries| => (Lower(entries[j].0), entries[j].1));
    assert Pairs.IsLastFor(lowered, i);
  }

  /** The entries the settings stand for, or the error reading them raises. */
  function ConfigEntries(settings: Settings, load: string -> YamlLoad): (r: Result<seq<(string, Value)>>)
    ensures settings.OtherSettings? ==> r == Err(TypeError(NotSettings))
    ensures settings.Mapping? ==> r == Ok(settings.entries)
    ensures settings.YamlText? && load(settings.text).LoadedFalsy? ==> r == Ok([])
    ensures settings.YamlText? && load(settings.text).YamlSyntaxError? ==>
              r == Err(ValueError("Invalid settings string format: " + load(settings.text).detail))
    ensures settings.YamlText? && load(settings.text).LoadedMapping? ==> r == Ok(load(settings.text).entries)
    ensures settings.YamlText? && load(settings.text).LoadedOther? ==> r == Err(AttributeError("items"))
  {
    match settings
    case OtherSettings => Err(TypeError(NotSettings))
    case Mapping(entries) => Ok(entries)
    case YamlText(text) =>
      match load(text)
      case YamlSyntaxError(detail) => Err(ValueError("Invalid settings string format: " + detail))
      case LoadedFalsy => Ok([])
      case LoadedMapping(entries) => Ok(entries)
      // a truthy non-mapping has no `.items()`
      case LoadedOther => Err(AttributeError("items"))
  }

  /** The `auth_method` dispatch: `password` and `client_credentials` select
      their path, any other value or none raises ValueError naming it. */
  function SelectAuthMethod(config: map<string, Value>): (r: Result<AuthMethod>)
    ensures r == Ok(Password) <==> "auth_method" in config && config["auth_method"] == VString("password")
    ensures r == Ok(ClientCredentials) <==> "auth_method" in config && config["auth_method"] == VString("client_credentials")
    ensures "auth_method" !in config ==> r == Err(ValueError("Unexpected authentication method specified: None"))
    ensures r.Err? && "auth_method" in config ==>
              r == Err(ValueError("Unexpected authentication method specified: " + Str(config["auth_method"])))
  {
    if "auth_method" !in config then Err(ValueError("Unexpected authentication method specified: None"))
    else if config["auth_method"] == VString("password") then Ok(Password)
    else if config["auth_method"] == VString("client_credentials") then Ok(ClientCredentials)
    else Err(ValueError("Unexpected authentication method specified: " + Str(config["auth_method"])))
  }

  /** A failed validation surfaces as ValueError, whichever way it failed. */
  function ValidatedDomain(v: Validation): (r: Result<string>)
    ensures r.Ok? <==> v.Validated?
    ensures r.Ok? ==> r.value == v.domain
    ensures r.Err? ==> r.error.ValueError?
  {
    match v
    case Validated(domain) => Ok(domain)
    case ValidationFailed(detail) => Err(ValueError("Failed to validate Salesforce settings: " + detail))
    case ParsingFailed(detail) => Err(ValueError("An unexpected error occurred during settings parsing: " + detail))
  }

  /** The host that issues client-credentials tokens for a domain. */
  function TokenEndpoint(domain: string): (e: string)
    ensures domain == "login" ==> e == "https://login.salesforce.com"
    ensures domain == "test" ==> e == "https://test.salesforce.com"
    ensures domain != "login" && domain != "test" ==> e == "https://" + domain + ".my.salesforce.com"
  {
    if domain == "login" then "https://login.salesforce.com"
    else if domain == "test" then "https://test.salesforce.com"
    else "https://" + domain + ".my.salesforce.com"
  }

  /** The OAuth token URL of a domain: the two fixed hosts, or the domain's
      own My Domain host. */
  function TokenUrl(domain: string): (u: string)
    ensures domain == "login" ==> u == "https://login.salesforce.com" + "/services/oauth2/token"
    ensures domain == "test" ==> u == "https://test.salesforce.com" + "/services/oauth2/token"
    ensures domain != "login" && domain != "test" ==>
              u == "https://" + domain + ".my.salesforce.com" + "/services/oauth2/token"
  {
    TokenEndpoint(domain) + "/services/oauth2/token"
  }

  /** Different domains never share a token URL, so a token request always
      goes to the domain it was validated for. */
  lemma TokenUrlInjective(d1: string, d2: string)
    requires d1 != d2
    ensures TokenUrl(d1) != TokenUrl(d2)
  {
    if TokenUrl(d1) == TokenUrl(d2) {
      var suffix := "/services/oauth2/token";
      var e1, e2 := TokenEndpoint(d1), TokenEndpoint(d2);
      assert e1 == TokenUrl(d1)[..|TokenUrl(d1)| - |suffix|];
      assert e2 == TokenUrl(d2)[..|TokenUrl(d2)| - |suffix|];
      TokenEndpointInjective(d1, d2);
    }
  }

  /** Different domains never share a token endpoint: a custom domain's host
      ends in `.my.salesforce.com`, which neither fixed host does. */
  lemma TokenEndpointInjective(d1: string, d2: string)
    requires TokenEndpoint(d1) == TokenEndpoint(d2)
    ensures d1 == d2
  {
    var e := TokenEndpoint(d1);
    if d1 != "login" && d1 != "test" {
      CustomEndpointNotFixed(d1);
      if d2 != "login" && d2 != "test" {
        assert d1 == e[8..|e| - 18];
      }
    } else if d2 != "login" && d2 != "test" {
      CustomEndpointNotFixed(d2);
    }
  }

  lemma CustomEndpointNotFixed(d: string)
    ensures "https://" + d + ".my.salesforce.com" != "https://login.salesforce.com"
    ensures "https://" + d + ".my.salesforce.com" != "https://test.salesforce.com"
  {
    var e := "https://" + d + ".my.salesforce.com";
    if |e| == |"https://login.salesforce.com"| {
      assert e[10] == '.';
    }
    if |e| == |"https://test.salesforce.com"| {
      assert e[9] == '.';
    }
  }

  /** `Sf.connection` up to the point where it hands over to the base client:
      settings are read, keys lower-cased, the method chosen and the config
      validated for it; client credentials also fix the token URL. */
  function Connect(settings: Settings, load: string -> YamlLoad,
                   validate: (AuthMethod, map<string, Value>) -> Validation): (r: Result<Login>)
    ensures settings.OtherSettings? ==> r == Err(TypeError(NotSettings))
    ensures settings.YamlText? && load(settings.text).LoadedFalsy? ==>
              r == Err(ValueError("Unexpected authentication method specified: None"))
    ensures ConfigEntries(settings, load).Err? ==> r == Err(ConfigEntries(settings, load).error)
    ensures ConfigEntries(settings, load).Ok? ==>
              var config := LowerKeys(ConfigEntries(settings, load).value);
              && (SelectAuthMethod(config).Err? ==> r == Err(SelectAuthMethod(config).error))
              && (SelectAuthMethod(config).Ok? ==>
                    (r.Ok? <==> validate(SelectAuthMethod(config).value, config).Validated?))
              && (SelectAuthMethod(config).Ok? && r.Err? ==> r.error.ValueError?)
    ensures r.Ok? ==> ConfigEntries(settings, load).Ok?
    ensures r.Ok? ==> r.value.config == LowerKeys(ConfigEntries(settings, load).value)
    ensures r.Ok? && r.value.PasswordLogin? ==>
              SelectAuthMethod(r.value.config) == Ok(Password) && validate(Password, r.value.config).Validated?
    ensures r.Ok? && r.value.ClientCredentialsLogin? ==>
              SelectAuthMethod(r.value.config) == Ok(ClientCredentials)
              && validate(ClientCredentials, r.value.config).Validated?
              && r.value.tokenUrl == TokenUrl(validate(ClientCredentials, r.value.config).domain)
  {
    match ConfigEntries(settings, load)
    case Err(e) => Err(e)
    case Ok(entries) =>
      var config := LowerKeys(entries);
      match SelectAuthMethod(config)
      case Err(e) => Err(e)
      case Ok(m) =>
        match ValidatedDomain(validate(m, config))
        case Err(e) => Err(e)
        case Ok(domain) =>
          if m == Password then Ok(PasswordLogin(config))
          else Ok(ClientCredentialsLogin(TokenUrl(domain), config))
  }

  /** Key case does not matter: settings whose only entry is `AUTH_METHOD:
      password` take the password path. */
  lemma UpperCaseAuthMethodAccepted(load: string -> YamlLoad, validate: (AuthMethod, map<string, Value>) -> Validation)
    requires validate(Password, map["auth_method" := VString("password")]).Validated?
    ensures Connect(Mapping([("AUTH_METHOD", VString("password"))]), load, validate)
            == Ok(PasswordLogin(map["auth_method" := VString("password")]))
  {
    var entries := [("AUTH_METHOD", VString("password"))];
    assert Lower("AUTH_METHOD") == "auth_method";
    LowerKeysLastWins(entries, 0);
    assert LowerKeys(entries) == map["auth_method" := VString("password")];
  }

  /** The settings with every name lower-cased. */
  function LowerNames(entries: seq<(string, Value)>): (r: seq<(string, Value)>)
    ensures |r| == |entries|
    ensures forall i :: 0 <= i < |entries| ==> r[i] == (Lower(entries[i].0), entries[i].1)
  {
    seq(|entries|, i requires 0 <= i < |entries| => (Lower(entries[i].0), entries[i].1))
  }

  /** Key case never matters to a connection: settings whose names were
      lower-cased beforehand connect exactly as the original settings do,
      whatever the outcome. */
  lemma ConnectIgnoresKeyCase(entries: seq<(string, Value)>, load: string -> YamlLoad,
                              validate: (AuthMethod, map<string, Value>) -> Validation)
    ensures Connect(Mapping(LowerNames(entries)), load, validate) == Connect(Mapping(entries), load, validate)
  {
    var lowered := LowerNames(entries);
    var once := seq(|entries|, i requires 0 <= i < |entries| => (Lower(entries[i].0), entries[i].1));
    var twice := seq(|lowered|, i requires 0 <= i < |lowered| => (Lower(lowered[i].0), lowered[i].1));
    forall i | 0 <= i < |entries|
      ensures twice[i] == once[i]
    {
      LowerIdempotent(entries[i].0);
    }
    assert twice == once;
    assert LowerKeys(lowered) == LowerKeys(entries);
  }
}

=== FILE: decode.dfy ===
/** Turning a CSV result body into the requested result shape. The CSV
    grammar itself (quoting, embedded newlines) is the row parser's business:
    it is a parameter, `parse`, from text to rows. */
module Decode {
  import opened Formats
  import Pairs

  function Min(a: int, b: int): int {
    if a <= b then a else b
  }

  /** `zip(header, row)`: the pairs up to the shorter of the two. */
  function ZipPairs(header: seq<string>, row: seq<string>): (ps: seq<(string, string)>)
    ensures |ps| == Min(|header|, |row|)
    ensures forall i :: 0 <= i < |ps| ==> ps[i] == (header[i], row[i])
  {
    seq(Min(|header|, |row|), i requires 0 <= i < Min(|header|, |row|) => (header[i], row[i]))
  }

  /** One `csv.DictReader` record: field names from the header, values from
      the row, a later duplicate field name overriding an earlier one. */
  function Record(header: seq<string>, row: seq<string>): (m: map<string, string>)
    ensures m.Keys == set i | 0 <= i < Min(|header|, |row|) :: header[i]
    ensures forall i :: 0 <= i < |header| && i < |row| && Pairs.IsLastFor(ZipPairs(header, row), i)
              ==> m[header[i]] == row[i]
  {
    var ps := ZipPairs(header, row);
    assert (set i | 0 <= i < |ps| :: ps[i].0) == set i | 0 <= i < Min(|header|, |row|) :: header[i];
    Pairs.FromPairs(ps)
  }

  /** The rows that are not blank, in order: `csv.DictReader` skips blank
      lines, which the row parser reports as empty rows. */
  function NonBlank(rows: seq<seq<string>>): (r: seq<seq<string>>)
    ensures |r| <= |rows|
    ensures forall i :: 0 <= i < |r| ==> r[i] != []
    ensures forall x :: x in r <==> x in rows && x != []
    ensures multiset(r) == multiset(rows)[[] := 0]
    ensures (forall i :: 0 <= i < |rows| ==> rows[i] != []) ==> r == rows
  {
    if |rows| == 0 then []
    else
      assert rows == [rows[0]] + rows[1..];
      if rows[0] == [] then NonBlank(rows[1..])
      else [rows[0]] + NonBlank(rows[1..])
  }

  /** Filtering commutes with concatenation, so the kept rows stay in their
      original order. */
  lemma {:induction false} NonBlankAppend(a: seq<seq<string>>, b: seq<seq<string>>)
    ensures NonBlank(a + b) == NonBlank(a) + NonBlank(b)
  {
    if |a| > 0 {
      assert (a + b)[1..] == a[1..] + b;
      NonBlankAppend(a[1..], b);
    } else {
      assert a + b == b;
    }
  }

  /** `list(csv.DictReader(...))` over the parsed rows: the first row is the
      header, and every later non-blank row becomes one record. */
  function DictRecords(rows: seq<seq<string>>): (r: seq<map<string, string>>)
    ensures |rows| == 0 ==> r == []
    ensures |rows| > 0 ==> |r| == |NonBlank(rows[1..])|
    ensures |rows| > 0 ==> forall i :: 0 <= i < |r| ==> r[i] == Record(rows[0], NonBlank(rows[1..])[i])
  {
    if |rows| == 0 then []
    else
      var data := NonBlank(rows[1..]);
      seq(|data|, i requires 0 <= i < |data| => Record(rows[0], data[i]))
  }

  /** The result of one retrieval in the requested format: `dict` gives the
      records, `reader` every parsed row with the header first, `csv` the text
      unchanged. */
  function DecodeAs(f: Format, text: string, parse: string -> seq<seq<string>>): (r: ResultSet)
    ensures HasShape(r, f)
    ensures f == Csv ==> r == Raw(text)
    ensures f == Reader ==> r == Rows(parse(text))
    ensures f == Dict ==> r == Records(DictRecords(parse(text)))
  {
    match f
    case Dict => Records(DictRecords(parse(text)))
    case Reader => Rows(parse(text))
    case Csv => Raw(text)
  }

  /** The shape of a decoded result tells which format was asked for. */
  lemma DecodedShapeNamesFormat(f: Format, g: Format, text: string, parse: string -> seq<seq<string>>)
    ensures HasShape(DecodeAs(f, text, parse), g) <==> f == g
  {
    ShapeDeterminesFormat(DecodeAs(f, text, parse), f, g);
  }

  /** With a header row and rectangular data, each record maps every field
      name to the cell in its column (the last column when a name repeats). */
  lemma {:induction false} RecordHoldsEveryField(header: seq<string>, row: seq<string>, i: int)
    requires |row| == |header| && 0 <= i < |header|
    ensures header[i] in Record(header, row)
    ensures exists j :: i <= j < |header| && header[j] == header[i] && Record(header, row)[header[i]] == row[j]
                        && forall k :: j < k < |header| ==> header[k] != header[i]
  {
    var ps := ZipPairs(header, row);
    var j := LastIndexOf(header, i);
    assert Pairs.IsLastFor(ps, j);
  }

  /** The last position at or after `i` holding the same name as `i`. */
  function LastIndexOf(names: seq<string>, i: int): (j: int)
    requires 0 <= i < |names|
    ensures i <= j < |names| && names[j] == names[i]
    ensures forall k :: j < k < |names| ==> names[k] != names[i]
    decreases |names| - i
  {
    if exists k :: i < k < |names| && names[k] == names[i] then
      var k :| i < k < |names| && names[k] == names[i];
      LastIndexOf(names, k)
    else i
  }

  /** A header, a blank line and one data row decode to one record keyed by
      the header: the blank line is skipped. */
  lemma OneRecordExample(text: string, parse: string -> seq<seq<string>>)
    requires parse(text) == [["Name", "Industry"], [], ["Acme", "Tech"]]
    ensures DecodeAs(Dict, text, parse) == Records([map["Name" := "Acme", "Industry" := "Tech"]])
  {
    var data: seq<seq<string>> := [[], ["Acme", "Tech"]];
    assert parse(text)[1..] == data;
    assert NonBlank(data) == [["Acme", "Tech"]] by {
      var rest: seq<seq<string>> := [["Acme", "Tech"]];
      assert data[1..] == rest && rest[1..] == [];
      assert NonBlank(rest) == [["Acme", "Tech"]] + NonBlank([]);
    }
    var m := Record(["Name", "Industry"], ["Acme", "Tech"]);
    assert Pairs.IsLastFor(ZipPairs(["Name", "Industry"], ["Acme", "Tech"]), 0);
    assert m.Keys == {"Name", "Industry"};
    assert m == map["Name" := "Acme", "Industry" := "Tech"];
  }
}

=== FILE: formats.dfy ===
/** The result formats a caller may ask for and the three result shapes they
    produce (`FormatType` and `ResultType`). */
module Formats {
  import opened Base

  /** The allowed values of `format_type`. */
  datatype Format = Dict | Reader | Csv

  /** A retrieved result: records keyed by the header (`dict`), raw rows with
      the header first (`reader`), or the undecoded text (`csv`). */
  datatype ResultSet =
    | Records(records: seq<map<string, string>>)
    | Rows(rows: seq<seq<string>>)
    | Raw(text: string)

  /** The literals of `FormatType`, in declaration order. */
  const AllowedFormats: seq<string> := ["dict", "reader", "csv"]

  function FormatName(f: Format): (s: string)
    ensures s in AllowedFormats
  {
    match f
    case Dict => "dict"
    case Reader => "reader"
    case Csv => "csv"
  }

  /** The format a `format_type` string names, or None when it names none. */
  function ParseFormat(s: string): (r: Option<Format>)
    ensures r.Some? <==> s in AllowedFormats
  {
    if s == "dict" then Some(Dict)
    else if s == "reader" then Some(Reader)
    else if s == "csv" then Some(Csv)
    else None
  }

  /** The `format_type` of a results getter when the caller gives none. */
  const DefaultFormat: string := "dict"

  /** The format name a results getter passes on: the caller's own, or the
      records format when the caller leaves `format_type` out. */
  function FormatOrDefault(format: Option<string>): (s: string)
    ensures format.Some? ==> s == format.value
    ensures format.None? ==> ParseFormat(s) == Some(Dict)
  {
    if format.Some? then format.value else DefaultFormat
  }

  /** The allowed formats are exactly the three literals, and each names one
      format: parsing a name gives back its format and vice versa. */
  lemma FormatNamesRoundTrip(f: Format, s: string)
    ensures ParseFormat(FormatName(f)) == Some(f)
    ensures ParseFormat(s) == Some(f) ==> FormatName(f) == s
  {
  }

  /** Which result variant a format produces. */
  predicate HasShape(r: ResultSet, f: Format) {
    match f
    case Dict => r.Records?
    case Reader => r.Rows?
    case Csv => r.Raw?
  }

  /** The format-to-shape correspondence is total and injective: every format
      has a shape, and no result has the shape of two formats. */
  lemma ShapeDeterminesFormat(r: ResultSet, f: Format, g: Format)
    ensures exists x :: HasShape(x, f)
    ensures HasShape(r, f) && HasShape(r, g) ==> f == g
  {
    match f
    case Dict => assert HasShape(Records([]), f);
    case Reader => assert HasShape(Rows([]), f);
    case Csv => assert HasShape(Raw(""), f);
  }

  /** Python's `sep.join(parts)`. */
  function Join(parts: seq<string>, sep: string): string {
    if |parts| == 0 then ""
    else if |parts| == 1 then parts[0]
    else parts[0] + sep + Join(parts[1..], sep)
  }

  /** The ValueError message for a format outside the allowed set: it names the
      offending value and lists the allowed ones. */
  function UnsupportedFormatMessage(format: string): (m: string)
    ensures m == "Unsupported format: '" + format + "'. Allowed formats are: dict, reader, csv"
  {
    "Unsupported format: '" + format + "'. Allowed formats are: " + Join(AllowedFormats, ", ")
  }
}

=== FILE: handles.dfy ===
/** Job handles: a job's immutable id and its cached info snapshot, plus the
    predicates an ingest handle offers over that snapshot without any call. */
module Handles {
  import opened Base
  import opened Json
  import opened Transport
  import opened JobStates

  /** What every handle holds: the client it delegates to, the job id taken
      from the creation snapshot, and the last snapshot it saw. */
  datatype JobBase = JobBase(client: BulkClient, id: Value, info: JsonObject)

  /** A handle on a query job (`SfBulkJobQuery`). */
  datatype QueryJob = QueryJob(base: JobBase)

  /** A handle on an ingest job (`SfBulkJob`). */
  datatype IngestJob = IngestJob(base: JobBase)

  /** Wrapping a creation snapshot: the id is its `id` entry and the cache is
      the whole snapshot; a snapshot without `id` raises KeyError. */
  function NewJobBase(c: BulkClient, jobInfo: JsonObject): (r: Result<JobBase>)
    ensures r.Ok? <==> "id" in jobInfo
    ensures r.Ok? ==> r.value.client == c && r.value.id == jobInfo["id"] && r.value.info == jobInfo
    ensures r.Err? ==> r.error == KeyError("id")
  {
    if "id" in jobInfo then Ok(JobBase(c, jobInfo["id"], jobInfo)) else Err(KeyError("id"))
  }

  /** The cache holds `next` in place of the old snapshot; nothing else of the
      handle changes. */
  function WithInfo(b: JobBase, next: JsonObject): (r: JobBase)
    ensures r.id == b.id && r.client == b.client && r.info == next
  {
    b.(info := next)
  }

  /** The job finished and the service accepted it: state `JobComplete`. */
  predicate IsSuccessful(h: IngestJob)
    ensures IsSuccessful(h) <==> "state" in h.base.info && h.base.info["state"] == VString(JobComplete)
  {
    StateIs(h.base.info, JobComplete)
  }

  /** The whole job failed: state `Failed`. */
  predicate IsFailed(h: IngestJob)
    ensures IsFailed(h) <==> "state" in h.base.info && h.base.info["state"] == VString(Failed)
  {
    StateIs(h.base.info, Failed)
  }

  /** The job was aborted: state `Aborted`. */
  predicate IsAborted(h: IngestJob)
    ensures IsAborted(h) <==> "state" in h.base.info && h.base.info["state"] == VString(Aborted)
  {
    StateIs(h.base.info, Aborted)
  }

  /** The three state predicates exclude one another, none holds without a
      state, and one of them holds exactly when the cached state is final. */
  lemma StatePredicatesPartition(h: IngestJob)
    ensures !(IsSuccessful(h) && IsFailed(h)) && !(IsSuccessful(h) && IsAborted(h)) && !(IsFailed(h) && IsAborted(h))
    ensures "state" !in h.base.info ==> !IsSuccessful(h) && !IsFailed(h) && !IsAborted(h)
    ensures (IsSuccessful(h) || IsFailed(h) || IsAborted(h)) <==> ("state" in h.base.info && IsTerminal(h.base.info["state"]))
  {
    TerminalIsOneOfThree(h.base.info);
  }

  /** `int(info.get("numberRecordsFailed", 0)) > 0`: false when the count is
      absent, otherwise whether the count converts to a positive int; a count
      that does not convert raises instead of counting as 0. */
  function HasFailedRecords(h: IngestJob): (r: Result<bool>)
    ensures "numberRecordsFailed" !in h.base.info ==> r == Ok(false)
    ensures "numberRecordsFailed" in h.base.info ==>
              (r.Err? <==> ToInt(h.base.info["numberRecordsFailed"]).Err?)
    ensures r == Ok(true) <==>
              "numberRecordsFailed" in h.base.info
              && ToInt(h.base.info["numberRecordsFailed"]).Ok?
              && ToInt(h.base.info["numberRecordsFailed"]).value > 0
  {
    var count := if "numberRecordsFailed" in h.base.info then h.base.info["numberRecordsFailed"] else VInt(0);
    match ToInt(count)
    case Ok(n) => Ok(n > 0)
    case Err(e) => Err(e)
  }

  /** A count the service reports as a JSON int or as its decimal text gives
      the same answer: whether it is positive. */
  lemma HasFailedRecordsOfCount(h: IngestJob, n: int)
    requires "numberRecordsFailed" in h.base.info
    requires h.base.info["numberRecordsFailed"] in {VInt(n), VString(IntToString(n))}
    requires WithinStrDigits(n)
    ensures HasFailedRecords(h) == Ok(n > 0)
  {
    ToIntOfStr(n);
  }
}

=== FILE: jobs.dfy ===
/** The handle operations that talk to the service. Each delegates to the
    matching flat `SfBulk` operation with the handle's own id (the handles
    name them through `query` and `ingest` namespaces the client lacks);
    `get_info` and `wait` then replace the cached snapshot whole with the one
    returned, and leave the handle as it was when the call raises. Every other operation
    returns no handle, so it cannot touch the cache. */
module Jobs {
  import opened Base
  import opened Json
  import opened Transport
  import opened Formats
  import opened JobStates
  import opened Handles
  import opened Bulk
  import opened Poll
  import Paths

  /** The attribute names an `SfBulk` instance has: its four fields and its
      methods. There is no `query` and no `ingest` among them. */
  const SfBulkAttributes: set<string> := {
    "bulk2_url", "headers", "_interval", "_timeout",
    "_make_request", "_get_csv_results", "_get_final_interval",
    "create_job_query", "get_job_query_info", "poll_job_query", "get_job_query_results",
    "create_job_insert", "create_job_update", "create_job_upsert", "create_job_delete",
    "create_job_hard_delete", "create_job", "upload_job_data", "uploaded_job", "get_job_info",
    "poll_job", "get_ingest_successful_results", "get_ingest_failed_results",
    "get_ingest_unprocessed_records"
  }

  /** `SfBulkJobQuery.get_info` as written: it looks up `self._sf_bulk.query`,
      which the client does not have, so it raises AttributeError before any
      request and leaves the cache as it was. The other handle operations go
      through `query` or `ingest` the same way. */
  function QueryGetInfoAsWritten(h: QueryJob, reply: Reply<JsonObject>): (r: (QueryJob, Call<JsonObject>))
    ensures r.0 == h
    ensures r.1.log == [] && r.1.result == Err(AttributeError("query"))
  {
    if "query" in SfBulkAttributes then QueryGetInfo(h, reply)
    else (h, Call([], Err(AttributeError("query"))))
  }

  /** The discrepancy: for a job the service answers, the handle as written
      fails without asking, while delegating to `get_job_query_info` returns
      the service's snapshot and caches it. */
  lemma QueryGetInfoAsWrittenFails(h: QueryJob, body: JsonObject)
    ensures QueryGetInfoAsWritten(h, Accepted(body)).1.result.Err?
    ensures QueryGetInfo(h, Accepted(body)).1.result == Ok(body)
    ensures QueryGetInfo(h, Accepted(body)).0.base.info == body
  {
  }

  /** The id as the request path spells it (an f-string, so `str(id)`). */
  function IdText(b: JobBase): string {
    Str(b.id)
  }

  // Query handles

  /** `SfBulkJobQuery.get_info`: a fresh snapshot of `query/{id}` replaces the
      cache and is returned. */
  function QueryGetInfo(h: QueryJob, reply: Reply<JsonObject>): (r: (QueryJob, Call<JsonObject>))
    ensures r.1 == GetJobQueryInfo(h.base.client, IdText(h.base), reply)
    ensures r.0.base.id == h.base.id && r.0.base.client == h.base.client
    ensures r.1.result.Ok? ==> r.0.base.info == r.1.result.value == reply.body
    ensures r.1.result.Err? ==> r.0 == h
  {
    var call := GetJobQueryInfo(h.base.client, IdText(h.base), reply);
    match call.result
    case Ok(info) => (QueryJob(WithInfo(h.base, info)), call)
    case Err(_) => (h, call)
  }

  /** `SfBulkJobQuery.wait`: polls `query/{id}` until a final state; the final
      snapshot replaces the cache and is returned. */
  method QueryWait(h: QueryJob, interval: Option<int>, trace: seq<Reply<JsonObject>>)
    returns (h': QueryJob, log: seq<Event>, result: Result<JsonObject>, polls: nat)
    requires |trace| > 0
    requires FinalInterval(h.base.client, interval) >= 0 ==> HasStop(trace)
    ensures Polled(trace, FinalInterval(h.base.client, interval),
                   InfoRequest(h.base.client, "query/" + IdText(h.base)), log, result, polls)
    ensures h'.base.id == h.base.id && h'.base.client == h.base.client
    ensures result.Ok? ==> h'.base.info == result.value && IsTerminal(h'.base.info["state"])
    ensures result.Err? ==> h' == h
  {
    log, result, polls := PollJobQuery(h.base.client, IdText(h.base), interval, trace);
    if result.Ok? {
      h' := QueryJob(WithInfo(h.base, result.value));
    } else {
      h' := h;
    }
  }

  /** `SfBulkJobQuery.get_results`: the results of `query/{id}/results` in the
      requested format, the id and format passed through unchanged. */
  function QueryGetResults(h: QueryJob, format: Option<string>, reply: Reply<string>,
                           parse: string -> seq<seq<string>>): (r: Call<ResultSet>)
    ensures r == GetCsvResults(h.base.client, "query/" + IdText(h.base) + "/results", FormatOrDefault(format), reply, parse)
  {
    GetJobQueryResults(h.base.client, IdText(h.base), format, reply, parse)
  }

  // Ingest handles

  /** `SfBulkJob.upload_data`: one PUT of the CSV text to this job's batches. */
  function IngestUploadData(h: IngestJob, csvData: string, reply: Reply<()>): (r: Call<()>)
    ensures r == UploadJobData(h.base.client, IdText(h.base), csvData, reply)
    ensures r.log[0].request.url == h.base.client.bulk2Url + "ingest/" + IdText(h.base) + "/batches"
  {
    UploadJobData(h.base.client, IdText(h.base), csvData, reply)
  }

  /** `SfBulkJob.complete_upload`: one PATCH closing this job's upload. */
  function IngestCompleteUpload(h: IngestJob, reply: Reply<()>): (r: Call<()>)
    ensures r == UploadedJob(h.base.client, IdText(h.base), reply)
    ensures r.log[0].request.url == h.base.client.bulk2Url + "ingest/" + IdText(h.base)
  {
    UploadedJob(h.base.client, IdText(h.base), reply)
  }

  /** `SfBulkJob.get_info`: a fresh snapshot of `ingest/{id}` replaces the cache
      and is returned. */
  function IngestGetInfo(h: IngestJob, reply: Reply<JsonObject>): (r: (IngestJob, Call<JsonObject>))
    ensures r.1 == GetJobInfo(h.base.client, IdText(h.base), reply)
    ensures r.0.base.id == h.base.id && r.0.base.client == h.base.client
    ensures r.1.result.Ok? ==> r.0.base.info == r.1.result.value == reply.body
    ensures r.1.result.Err? ==> r.0 == h
  {
    var call := GetJobInfo(h.base.client, IdText(h.base), reply);
    match call.result
    case Ok(info) => (IngestJob(WithInfo(h.base, info)), call)
    case Err(_) => (h, call)
  }

  /** Asking twice while the service's answer stays the same gives the same
      handle and the same snapshot. */
  lemma IngestGetInfoIdempotent(h: IngestJob, reply: Reply<JsonObject>)
    ensures IngestGetInfo(IngestGetInfo(h, reply).0, reply) == (IngestGetInfo(h, reply).0, IngestGetInfo(h, reply).1)
  {
  }

  /** `SfBulkJob.wait`: polls `ingest/{id}` until a final state; the final
      snapshot replaces the cache, so exactly one of the state predicates
      holds afterwards. */
  method IngestWait(h: IngestJob, interval: Option<int>, trace: seq<Reply<JsonObject>>)
    returns (h': IngestJob, log: seq<Event>, result: Result<JsonObject>, polls: nat)
    requires |trace| > 0
    requires FinalInterval(h.base.client, interval) >= 0 ==> HasStop(trace)
    ensures Polled(trace, FinalInterval(h.base.client, interval),
                   InfoRequest(h.base.client, "ingest/" + IdText(h.base)), log, result, polls)
    ensures h'.base.id == h.base.id && h'.base.client == h.base.client
    ensures result.Ok? ==> h'.base.info == result.value
    ensures result.Ok? ==> (IsSuccessful(h') || IsFailed(h') || IsAborted(h'))
    ensures !(IsSuccessful(h') && IsFailed(h')) && !(IsSuccessful(h') && IsAborted(h'))
            && !(IsFailed(h') && IsAborted(h'))
    ensures result.Err? ==> h' == h
  {
    log, result, polls := PollJob(h.base.client, IdText(h.base), interval, trace);
    if result.Ok? {
      h' := IngestJob(WithInfo(h.base, result.value));
      StatePredicatesPartition(h');
    } else {
      h' := h;
    }
  }

  /** `SfBulkJob.get_successful_results`. */
  function IngestGetSuccessfulResults(h: IngestJob, format: Option<string>, reply: Reply<string>,
                                      parse: string -> seq<seq<string>>): (r: Call<ResultSet>)
    ensures r == GetCsvResults(h.base.client, "ingest/" + IdText(h.base) + "/successfulResults", FormatOrDefault(format), reply, parse)
  {
    GetIngestSuccessfulResults(h.base.client, IdText(h.base), format, reply, parse)
  }

  /** `SfBulkJob.get_failed_results`. */
  function IngestGetFailedResults(h: IngestJob, format: Option<string>, reply: Reply<string>,
                                  parse: string -> seq<seq<string>>): (r: Call<ResultSet>)
    ensures r == GetCsvResults(h.base.client, "ingest/" + IdText(h.base) + "/failedResults", FormatOrDefault(format), reply, parse)
  {
    GetIngestFailedResults(h.base.client, IdText(h.base), format, reply, parse)
  }

  /** `SfBulkJob.get_unprocessed_records`. */
  function IngestGetUnprocessedRecords(h: IngestJob, format: Option<string>, reply: Reply<string>,
                                       parse: string -> seq<seq<string>>): (r: Call<ResultSet>)
    ensures r == GetCsvResults(h.base.client, "ingest/" + IdText(h.base) + "/unprocessedrecords", FormatOrDefault(format), reply, parse)
  {
    GetIngestUnprocessedRecords(h.base.client, IdText(h.base), format, reply, parse)
  }

  // Which resource a request touches

  /** `req` goes to the client's base URL followed by a path that the service
      routes to endpoint `e`. */
  predicate Targets(c: BulkClient, req: Request, e: Paths.Endpoint) {
    |c.bulk2Url| <= |req.url| && req.url[..|c.bulk2Url|] == c.bulk2Url
    && Paths.Route(req.url[|c.bulk2Url|..]) == Some(e)
  }

  lemma TargetsPath(c: BulkClient, req: Request, e: Paths.Endpoint)
    requires req.url == c.bulk2Url + Paths.Path(e) && '/' !in Paths.IdOf(e)
    ensures Targets(c, req, e)
  {
    assert req.url[|c.bulk2Url|..] == Paths.Path(e);
    Paths.RouteOfPath(e);
  }

  /** Every request a query handle makes concerns its own job: the info fetch
      reaches `query/{id}` and the results fetch `query/{id}/results`. */
  lemma QueryRequestsTargetOwnJob(h: QueryJob, ri: Reply<JsonObject>, format: Option<string>, rr: Reply<string>,
                                  parse: string -> seq<seq<string>>)
    requires '/' !in IdText(h.base)
    ensures Targets(h.base.client, QueryGetInfo(h, ri).1.log[0].request, Paths.QueryInfo(IdText(h.base)))
    ensures FormatOrDefault(format) in AllowedFormats ==>
              Targets(h.base.client, QueryGetResults(h, format, rr, parse).log[0].request, Paths.QueryResults(IdText(h.base)))
  {
    var c, id := h.base.client, IdText(h.base);
    TargetsPath(c, QueryGetInfo(h, ri).1.log[0].request, Paths.QueryInfo(id));
    if FormatOrDefault(format) in AllowedFormats {
      TargetsPath(c, QueryGetResults(h, format, rr, parse).log[0].request, Paths.QueryResults(id));
    }
  }

  /** Every request an ingest handle makes while loading and watching the job
      concerns that job: the upload reaches `ingest/{id}/batches`, and closing
      the upload and fetching info reach `ingest/{id}`. */
  lemma IngestRequestsTargetOwnJob(h: IngestJob, csvData: string, ru: Reply<()>, rc: Reply<()>, ri: Reply<JsonObject>)
    requires '/' !in IdText(h.base)
    ensures Targets(h.base.client, IngestUploadData(h, csvData, ru).log[0].request, Paths.IngestBatches(IdText(h.base)))
    ensures Targets(h.base.client, IngestCompleteUpload(h, rc).log[0].request, Paths.IngestInfo(IdText(h.base)))
    ensures Targets(h.base.client, IngestGetInfo(h, ri).1.log[0].request, Paths.IngestInfo(IdText(h.base)))
  {
    var c, id := h.base.client, IdText(h.base);
    TargetsPath(c, IngestUploadData(h, csvData, ru).log[0].request, Paths.IngestBatches(id));
    TargetsPath(c, IngestCompleteUpload(h, rc).log[0].request, Paths.IngestInfo(id));
    TargetsPath(c, IngestGetInfo(h, ri).1.log[0].request, Paths.IngestInfo(id));
  }

  /** Each of an ingest handle's result fetches reaches its own resource of
      the handle's job. */
  lemma IngestResultsTargetOwnJob(h: IngestJob, format: Option<string>, rr: Reply<string>, parse: string -> seq<seq<string>>)
    requires '/' !in IdText(h.base) && FormatOrDefault(format) in AllowedFormats
    ensures Targets(h.base.client, IngestGetSuccessfulResults(h, format, rr, parse).log[0].request,
                    Paths.SuccessfulResults(IdText(h.base)))
    ensures Targets(h.base.client, IngestGetFailedResults(h, format, rr, parse).log[0].request,
                    Paths.FailedResults(IdText(h.base)))
    ensures Targets(h.base.client, IngestGetUnprocessedRecords(h, format, rr, parse).log[0].request,
                    Paths.UnprocessedRecords(IdText(h.base)))
  {
    var c, id := h.base.client, IdText(h.base);
    TargetsPath(c, IngestGetSuccessfulResults(h, format, rr, parse).log[0].request, Paths.SuccessfulResults(id));
    TargetsPath(c, IngestGetFailedResults(h, format, rr, parse).log[0].request, Paths.FailedResults(id));
    TargetsPath(c, IngestGetUnprocessedRecords(h, format, rr, parse).log[0].request, Paths.UnprocessedRecords(id));
  }
}

=== FILE: json.dfy ===
/** The JSON values a job-info snapshot holds, with Python's `str()` and
    `int()` on them. */
module Json {
  import opened Base

  /** A decoded JSON value. Arrays, objects and floats are never inspected by
      the client, so they stay opaque and keep only their `str()` rendering. */
  datatype Value =
    | VString(s: string)
    | VInt(i: int)
    | VBool(b: bool)
    | VNull
    | VOther(text: string)

  /** A job-info snapshot: a decoded JSON object. */
  type JsonObject = map<string, Value>

  predicate IsDigit(c: char) {
    '0' <= c <= '9'
  }

  predicate IsDecimal(s: string) {
    |s| > 0 && forall i :: 0 <= i < |s| ==> IsDigit(s[i])
  }

  function DigitValue(c: char): (d: nat)
    requires IsDigit(c)
    ensures d < 10
  {
    c as int - '0' as int
  }

  function DigitChar(d: nat): (c: char)
    requires d < 10
    ensures IsDigit(c) && DigitValue(c) == d
  {
    ('0' as int + d) as char
  }

  /** Decimal rendering of a natural number, without leading zeros. */
  function NatToString(n: nat): (s: string)
    ensures IsDecimal(s)
    ensures s[0] == '0' <==> n == 0
    ensures n == 0 ==> s == "0"
    ensures |s| == 1 || s[0] != '0'
  {
    if n < 10 then [DigitChar(n)] else NatToString(n / 10) + [DigitChar(n % 10)]
  }

  /** The number a string of decimal digits denotes. */
  function DigitsValue(s: string): nat
    requires forall i :: 0 <= i < |s| ==> IsDigit(s[i])
  {
    if |s| == 0 then 0 else 10 * DigitsValue(s[..|s| - 1]) + DigitValue(s[|s| - 1])
  }

  lemma {:induction false} DigitsValueOfNatToString(n: nat)
    ensures DigitsValue(NatToString(n)) == n
  {
    if n >= 10 {
      var s := NatToString(n);
      assert s[..|s| - 1] == NatToString(n / 10);
      DigitsValueOfNatToString(n / 10);
    }
  }

  /** Python's `str(i)` for an int. */
  function IntToString(i: int): (s: string)
    ensures |s| > 0 && IsDigit(s[|s| - 1])
    ensures s[0] == '-' <==> i < 0
    ensures i >= 0 ==> IsDecimal(s)
    ensures i >= 0 ==> s == "0" || s[0] != '0'
    ensures i < 0 ==> |s| > 1 && s[1] != '0'
  {
    if i < 0 then "-" + NatToString(-i) else NatToString(i)
  }

  /** The ASCII whitespace `int()` skips around the digits: space, tab, line
      feed, vertical tab, form feed and carriage return. The separators
      U+001C to U+001F, which `str.strip()` would also remove, are not
      skipped. */
  predicate IsSpace(c: char) {
    9 <= c as int <= 13 || c == ' '
  }

  function StripLeft(s: string): (t: string)
    ensures |t| <= |s| && t == s[|s| - |t|..]
    ensures |t| > 0 ==> !IsSpace(t[0])
    ensures forall i :: 0 <= i < |s| - |t| ==> IsSpace(s[i])
  {
    if |s| > 0 && IsSpace(s[0]) then StripLeft(s[1..]) else s
  }

  function StripRight(s: string): (t: string)
    ensures |t| <= |s| && t == s[..|t|]
    ensures |t| > 0 ==> !IsSpace(t[|t| - 1])
    ensures forall i :: |t| <= i < |s| ==> IsSpace(s[i])
  {
    if |s| > 0 && IsSpace(s[|s| - 1]) then StripRight(s[..|s| - 1]) else s
  }

  /** The text `int()` reads: the argument without the ASCII whitespace it
      skips around the digits. */
  function Strip(s: string): string {
    StripRight(StripLeft(s))
  }

  /** The most digits `int()` and `str()` convert between text and int:
      Python's default `sys.get_int_max_str_digits()`. */
  const MaxStrDigits: nat := 4300

  /** A sign followed by one or more decimal digits. */
  predicate IsSignedDecimal(t: string) {
    |t| > 1 && (t[0] == '+' || t[0] == '-') && IsDecimal(t[1..])
  }

  /** A well-formed literal with more digits than `int()` converts. */
  predicate ExceedsDigitLimit(t: string) {
    (IsDecimal(t) && |t| > MaxStrDigits) || (IsSignedDecimal(t) && |t| - 1 > MaxStrDigits)
  }

  /** Python's `int(s)` on a string: surrounding whitespace, an optional sign,
      then one to 4300 decimal digits. None where `int()` raises ValueError. */
  function ParseInt(s: string): (r: Option<int>)
    ensures r.Some? <==> (IsDecimal(Strip(s)) || IsSignedDecimal(Strip(s))) && !ExceedsDigitLimit(Strip(s))
    ensures r.Some? && IsDecimal(Strip(s)) ==> r.value == DigitsValue(Strip(s))
    ensures r.Some? && IsSignedDecimal(Strip(s)) && Strip(s)[0] == '+' ==> r.value == DigitsValue(Strip(s)[1..])
    ensures r.Some? && IsSignedDecimal(Strip(s)) && Strip(s)[0] == '-' ==> r.value == 0 - DigitsValue(Strip(s)[1..])
  {
    var t := Strip(s);
    if ExceedsDigitLimit(t) then None
    else if IsSignedDecimal(t) then
      var magnitude: int := DigitsValue(t[1..]);
      Some(if t[0] == '-' then -magnitude else magnitude)
    else if IsDecimal(t) then
      assert IsDigit(t[0]);
      Some(DigitsValue(t))
    else None
  }

  /** `int()` skips ASCII whitespace around the digits but not the
      information separators: `int(" 5\n")` is 5 while `int("\x1c5")` raises. */
  lemma SeparatorIsNotWhitespace()
    ensures ParseInt([' ', '5', '\n']) == Some(5)
    ensures ParseInt([28 as char, '5']) == None
  {
    assert StripLeft([' ', '5', '\n']) == ['5', '\n'];
    assert StripRight(['5', '\n']) == ['5'];
    assert StripLeft([28 as char, '5']) == [28 as char, '5'];
  }

  /** A string that neither starts nor ends with whitespace is its own strip. */
  lemma StripUnchanged(s: string)
    requires |s| > 0 && !IsSpace(s[0]) && !IsSpace(s[|s| - 1])
    ensures Strip(s) == s
  {
    assert StripLeft(s) == s;
  }

  /** An int whose decimal rendering `str()` and `int()` convert: at most
      4300 digits. Every int a JSON reply decodes to is one, since decoding
      applies the same limit. */
  predicate WithinStrDigits(i: int) {
    |NatToString(if i < 0 then -i else i)| <= MaxStrDigits
  }

  /** int(str(i)) == i: the decimal rendering parses back to the same int. */
  lemma ParseIntRoundTrip(i: int)
    requires WithinStrDigits(i)
    ensures ParseInt(IntToString(i)) == Some(i)
  {
    var s := IntToString(i);
    StripUnchanged(s);
    if i < 0 {
      assert s[1..] == NatToString(-i);
      DigitsValueOfNatToString(-i);
    } else {
      DigitsValueOfNatToString(i);
    }
  }

  /** Python's `str(v)`, which is also what an f-string inserts. */
  function Str(v: Value): string {
    match v
    case VString(s) => s
    case VInt(i) => IntToString(i)
    case VBool(b) => if b then "True" else "False"
    case VNull => "None"
    case VOther(text) => text
  }

  /** Python's `int(v)`: ints pass through, booleans count as 0 and 1, strings
      are parsed, everything else is a TypeError. */
  function ToInt(v: Value): (r: Result<int>)
    ensures v.VInt? ==> r == Ok(v.i)
    ensures v.VString? ==> (r.Ok? <==> ParseInt(v.s).Some?)
    ensures v.VString? && r.Ok? ==> r.value == ParseInt(v.s).value
    ensures v.VBool? ==> r == Ok(if v.b then 1 else 0)
    ensures (v.VNull? || v.VOther?) ==> r.Err? && r.error.TypeError?
    ensures r.Err? ==> r.error.ValueError? || r.error.TypeError?
  {
    match v
    case VInt(i) => Ok(i)
    case VBool(b) => Ok(if b then 1 else 0)
    case VString(s) =>
      (match ParseInt(s)
       case Some(n) => Ok(n)
       case None =>
         if ExceedsDigitLimit(Strip(s)) then
           Err(ValueError("Exceeds the limit (4300 digits) for integer string conversion"))
         else Err(ValueError("invalid literal for int() with base 10: '" + s + "'")))
    case VNull => Err(TypeError("int() argument must be a string, a bytes-like object or a real number, not 'NoneType'"))
    case VOther(_) => Err(TypeError("int() argument must be a string, a bytes-like object or a real number"))
  }

  /** int(str(n)) == n for every JSON int. */
  lemma ToIntOfStr(i: int)
    requires WithinStrDigits(i)
    ensures ToInt(VString(Str(VInt(i)))) == Ok(i)
  {
    ParseIntRoundTrip(i);
  }
}

=== FILE: pairs.dfy ===
/** Building a Python dict from key/value pairs taken in order, as `dict(...)`
    and a dict comprehension do: the last pair for a key decides its value. */
module Pairs {

  /** Pair `i` is the last one in `ps` that carries its key. */
  predicate IsLastFor<K(==), V>(ps: seq<(K, V)>, i: int)
    requires 0 <= i < |ps|
  {
    forall j :: i < j < |ps| ==> ps[j].0 != ps[i].0
  }

  /** The dict holds exactly the keys of the pairs, and each key maps to the
      value of the last pair that carries it. */
  function FromPairs<K(==), V>(ps: seq<(K, V)>): (m: map<K, V>)
    ensures m.Keys == set i | 0 <= i < |ps| :: ps[i].0
    ensures forall i :: 0 <= i < |ps| && IsLastFor(ps, i) ==> ps[i].0 in m && m[ps[i].0] == ps[i].1
  {
    if |ps| == 0 then map[]
    else
      var init := ps[..|ps| - 1];
      var m := FromPairs(init);
      ExtendKeys(ps, init, m);
      ExtendValues(ps, init, m);
      m[ps[|ps| - 1].0 := ps[|ps| - 1].1]
  }

  /** Adding the final pair to the dict of the earlier ones adds its key. */
  lemma ExtendKeys<K, V>(ps: seq<(K, V)>, init: seq<(K, V)>, m: map<K, V>)
    requires |ps| > 0 && init == ps[..|ps| - 1]
    requires m.Keys == set i | 0 <= i < |init| :: init[i].0
    ensures m[ps[|ps| - 1].0 := ps[|ps| - 1].1].Keys == set i | 0 <= i < |ps| :: ps[i].0
  {
    var n := |init|;
    var m' := m[ps[n].0 := ps[n].1];
    forall k | k in m'.Keys
      ensures k in set i | 0 <= i < |ps| :: ps[i].0
    {
      if k != ps[n].0 {
        var i :| 0 <= i < n && init[i].0 == k;
        assert ps[i].0 == k;
      }
    }
    forall i | 0 <= i < |ps|
      ensures ps[i].0 in m'.Keys
    {
      if i < n {
        assert ps[i] == init[i];
      }
    }
  }

  /** Adding the final pair to the dict of the earlier ones keeps every value
      that a later pair does not override, and sets the final pair's. */
  lemma ExtendValues<K, V>(ps: seq<(K, V)>, init: seq<(K, V)>, m: map<K, V>)
    requires |ps| > 0 && init == ps[..|ps| - 1]
    requires forall i :: 0 <= i < |init| && IsLastFor(init, i) ==> init[i].0 in m && m[init[i].0] == init[i].1
    ensures forall i :: 0 <= i < |ps| && IsLastFor(ps, i) ==>
              ps[i].0 in m[ps[|ps| - 1].0 := ps[|ps| - 1].1] && m[ps[|ps| - 1].0 := ps[|ps| - 1].1][ps[i].0] == ps[i].1
  {
    var n := |init|;
    forall i | 0 <= i < n && IsLastFor(ps, i)
      ensures IsLastFor(init, i) && init[i] == ps[i] && ps[i].0 != ps[n].0
    {
      forall j | i < j < n
        ensures init[j].0 != init[i].0
      {
        assert ps[j] == init[j];
      }
    }
  }
}

=== FILE: paths.dfy ===
/** The endpoints of the Bulk API 2.0, relative to the client's base URL.
    Each path is spelled exactly as the service expects, case included. */
module Paths {
  import opened Base
  import Formats

  datatype Endpoint =
    | QueryJobs
    | QueryInfo(id: string)
    | QueryResults(id: string)
    | IngestJobs
    | IngestInfo(id: string)
    | IngestBatches(id: string)
    | SuccessfulResults(id: string)
    | FailedResults(id: string)
    | UnprocessedRecords(id: string)

  /** The URL path of an endpoint: its segments joined with '/'. */
  function Path(e: Endpoint): (p: string)
  {
    match e
    case QueryJobs => "query"
    case QueryInfo(id) => "query/" + id
    case QueryResults(id) => "query/" + id + "/results"
    case IngestJobs => "ingest"
    case IngestInfo(id) => "ingest/" + id
    case IngestBatches(id) => "ingest/" + id + "/batches"
    case SuccessfulResults(id) => "ingest/" + id + "/successfulResults"
    case FailedResults(id) => "ingest/" + id + "/failedResults"
    case UnprocessedRecords(id) => "ingest/" + id + "/unprocessedrecords"
  }

  /** Every path is its endpoint's segments joined with '/'. */
  lemma PathJoinsSegments(e: Endpoint)
    ensures Path(e) == Formats.Join(Segments(e), "/")
  {
    if e.QueryInfo? || e.IngestInfo? {
      InfoPathJoins(e);
    } else if !e.QueryJobs? && !e.IngestJobs? {
      ResultsPathJoins(e);
    }
  }

  /** The two job-info paths: service, then id. */
  lemma InfoPathJoins(e: Endpoint)
    requires e.QueryInfo? || e.IngestInfo?
    ensures Path(e) == Formats.Join(Segments(e), "/")
  {
    JoinTwo(Segments(e)[0], e.id);
  }

  /** The five three-segment paths: service, id, then the resource. */
  lemma ResultsPathJoins(e: Endpoint)
    requires !e.QueryJobs? && !e.IngestJobs? && !e.QueryInfo? && !e.IngestInfo?
    ensures Path(e) == Formats.Join(Segments(e), "/")
  {
    match e
    case QueryResults(id) => QueryResultsPathJoins(id);
    case IngestBatches(id) => IngestBatchesPathJoins(id);
    case SuccessfulResults(id) => SuccessfulResultsPathJoins(id);
    case FailedResults(id) => FailedResultsPathJoins(id);
    case UnprocessedRecords(id) => UnprocessedRecordsPathJoins(id);
  }

  lemma QueryResultsPathJoins(id: string)
    ensures Path(QueryResults(id)) == Formats.Join(Segments(QueryResults(id)), "/")
  {
    assert Path(QueryResults(id)) == "query" + "/" + id + "/" + "results";
    JoinThree("query", id, "results");
  }

  lemma IngestBatchesPathJoins(id: string)
    ensures Path(IngestBatches(id)) == Formats.Join(Segments(IngestBatches(id)), "/")
  {
    assert Path(IngestBatches(id)) == "ingest" + "/" + id + "/" + "batches";
    JoinThree("ingest", id, "batches");
  }

  lemma SuccessfulResultsPathJoins(id: string)
    ensures Path(SuccessfulResults(id)) == Formats.Join(Segments(SuccessfulResults(id)), "/")
  {
    assert Path(SuccessfulResults(id)) == "ingest" + "/" + id + "/" + "successfulResults";
    JoinThree("ingest", id, "successfulResults");
  }

  lemma FailedResultsPathJoins(id: string)
    ensures Path(FailedResults(id)) == Formats.Join(Segments(FailedResults(id)), "/")
  {
    assert Path(FailedResults(id)) == "ingest" + "/" + id + "/" + "failedResults";
    JoinThree("ingest", id, "failedResults");
  }

  lemma UnprocessedRecordsPathJoins(id: string)
    ensures Path(UnprocessedRecords(id)) == Formats.Join(Segments(UnprocessedRecords(id)), "/")
  {
    assert Path(UnprocessedRecords(id)) == "ingest" + "/" + id + "/" + "unprocessedrecords";
    JoinThree("ingest", id, "unprocessedrecords");
  }

  /** Joining two segments puts a '/' between them. */
  lemma JoinTwo(a: string, b: string)
    ensures Formats.Join([a, b], "/") == a + "/" + b
  {
    assert [a, b][1..] == [b];
  }

  /** Joining three segments puts a '/' between each pair. */
  lemma JoinThree(a: string, b: string, c: string)
    ensures Formats.Join([a, b, c], "/") == a + "/" + b + "/" + c
  {
    assert [a, b, c][1..] == [b, c];
    assert [b, c][1..] == [c];
    JoinTwo(b, c);
    assert Formats.Join([a, b, c], "/") == a + "/" + (b + "/" + c);
  }

  /** The job id an endpoint mentions, or "" for the two creation endpoints. */
  function IdOf(e: Endpoint): string {
    if e.QueryJobs? || e.IngestJobs? then "" else e.id
  }

  /** Splitting a path at every '/'. */
  function Split(s: string): (parts: seq<string>)
    ensures |parts| > 0
    decreases |s|
  {
    if '/' !in s then [s]
    else
      var i := FirstSlash(s);
      [s[..i]] + Split(s[i + 1..])
  }

  function FirstSlash(s: string): (i: nat)
    requires '/' in s
    ensures i < |s| && s[i] == '/' && '/' !in s[..i]
  {
    if s[0] == '/' then 0 else 1 + FirstSlash(s[1..])
  }

  lemma SplitJoin(a: string, b: string)
    requires '/' !in a
    ensures Split(a + "/" + b) == [a] + Split(b)
  {
    var s := a + "/" + b;
    assert s[|a|] == '/';
    FirstSlashAfter(a, b);
    assert s[..|a|] == a;
    assert s[|a| + 1..] == b;
  }

  lemma {:induction false} FirstSlashAfter(a: string, b: string)
    requires '/' !in a
    ensures '/' in a + "/" + b && FirstSlash(a + "/" + b) == |a|
  {
    var s := a + "/" + b;
    assert s[|a|] == '/';
    if |a| > 0 {
      assert s[0] == a[0];
      assert s[1..] == a[1..] + "/" + b;
      FirstSlashAfter(a[1..], b);
    }
  }

  lemma NoSlash(a: string)
    requires '/' !in a
    ensures Split(a) == [a]
  {
  }

  /** How the service reads a path back into an endpoint. */
  function Route(p: string): Option<Endpoint> {
    RouteSegments(Split(p))
  }

  function RouteSegments(parts: seq<string>): Option<Endpoint> {
    if |parts| == 1 then
      if parts[0] == "query" then Some(QueryJobs)
      else if parts[0] == "ingest" then Some(IngestJobs)
      else None
    else if |parts| == 2 then
      if parts[0] == "query" then Some(QueryInfo(parts[1]))
      else if parts[0] == "ingest" then Some(IngestInfo(parts[1]))
      else None
    else if |parts| == 3 then
      if parts[0] == "query" && parts[2] == "results" then Some(QueryResults(parts[1]))
      else if parts[0] == "ingest" && parts[2] == "batches" then Some(IngestBatches(parts[1]))
      else if parts[0] == "ingest" && parts[2] == "successfulResults" then Some(SuccessfulResults(parts[1]))
      else if parts[0] == "ingest" && parts[2] == "failedResults" then Some(FailedResults(parts[1]))
      else if parts[0] == "ingest" && parts[2] == "unprocessedrecords" then Some(UnprocessedRecords(parts[1]))
      else None
    else None
  }

  /** The segments of each path, as the service splits it. */
  function Segments(e: Endpoint): seq<string> {
    match e
    case QueryJobs => ["query"]
    case QueryInfo(id) => ["query", id]
    case QueryResults(id) => ["query", id, "results"]
    case IngestJobs => ["ingest"]
    case IngestInfo(id) => ["ingest", id]
    case IngestBatches(id) => ["ingest", id, "batches"]
    case SuccessfulResults(id) => ["ingest", id, "successfulResults"]
    case FailedResults(id) => ["ingest", id, "failedResults"]
    case UnprocessedRecords(id) => ["ingest", id, "unprocessedrecords"]
  }

  lemma SplitPath(e: Endpoint)
    requires '/' !in IdOf(e)
    ensures Split(Path(e)) == Segments(e)
  {
    match e
    case QueryJobs =>
    case IngestJobs =>
    case QueryInfo(id) => SplitQueryInfo(id);
    case IngestInfo(id) => SplitIngestInfo(id);
    case QueryResults(id) => SplitQueryResults(id);
    case IngestBatches(id) => SplitIngestBatches(id);
    case SuccessfulResults(id) => SplitSuccessfulResults(id);
    case FailedResults(id) => SplitFailedResults(id);
    case UnprocessedRecords(id) => SplitUnprocessedRecords(id);
  }

  lemma SplitQueryInfo(id: string)
    requires '/' !in id
    ensures Split(Path(QueryInfo(id))) == Segments(QueryInfo(id))
  {
    assert Path(QueryInfo(id)) == "query" + "/" + id;
    SplitJoin("query", id);
    NoSlash(id);
  }

  lemma SplitIngestInfo(id: string)
    requires '/' !in id
    ensures Split(Path(IngestInfo(id))) == Segments(IngestInfo(id))
  {
    assert Path(IngestInfo(id)) == "ingest" + "/" + id;
    SplitJoin("ingest", id);
    NoSlash(id);
  }

  lemma SplitQueryResults(id: string)
    requires '/' !in id
    ensures Split(Path(QueryResults(id))) == Segments(QueryResults(id))
  {
    assert Path(QueryResults(id)) == "query" + "/" + id + "/" + "results";
    ThreeSegments("query", id, "results");
  }

  lemma SplitIngestBatches(id: string)
    requires '/' !in id
    ensures Split(Path(IngestBatches(id))) == Segments(IngestBatches(id))
  {
    assert Path(IngestBatches(id)) == "ingest" + "/" + id + "/" + "batches";
    ThreeSegments("ingest", id, "batches");
  }

  lemma SplitSuccessfulResults(id: string)
    requires '/' !in id
    ensures Split(Path(SuccessfulResults(id))) == Segments(SuccessfulResults(id))
  {
    assert Path(SuccessfulResults(id)) == "ingest" + "/" + id + "/" + "successfulResults";
    ThreeSegments("ingest", id, "successfulResults");
  }

  lemma SplitFailedResults(id: string)
    requires '/' !in id
    ensures Split(Path(FailedResults(id))) == Segments(FailedResults(id))
  {
    assert Path(FailedResults(id)) == "ingest" + "/" + id + "/" + "failedResults";
    ThreeSegments("ingest", id, "failedResults");
  }

  lemma SplitUnprocessedRecords(id: string)
    requires '/' !in id
    ensures Split(Path(UnprocessedRecords(id))) == Segments(UnprocessedRecords(id))
  {
    assert Path(UnprocessedRecords(id)) == "ingest" + "/" + id + "/" + "unprocessedrecords";
    ThreeSegments("ingest", id, "unprocessedrecords");
  }

  /** Every path routes back to the endpoint it was built for, as long as the
      job id holds no '/'. */
  lemma RouteOfPath(e: Endpoint)
    requires '/' !in IdOf(e)
    ensures Route(Path(e)) == Some(e)
  {
    SplitPath(e);
    RouteSegmentsOf(e);
  }

  lemma RouteSegmentsOf(e: Endpoint)
    ensures RouteSegments(Segments(e)) == Some(e)
  {
    match e
    case QueryJobs =>
    case IngestJobs =>
    case QueryInfo(id) =>
    case IngestInfo(id) =>
    case QueryResults(id) =>
    case IngestBatches(id) =>
    case SuccessfulResults(id) =>
    case FailedResults(id) =>
    case UnprocessedRecords(id) =>
  }

  lemma ThreeSegments(a: string, id: string, c: string)
    requires '/' !in a && '/' !in id && '/' !in c
    ensures Split(a + "/" + id + "/" + c) == [a, id, c]
  {
    assert a + "/" + id + "/" + c == a + "/" + (id + "/" + c);
    SplitJoin(a, id + "/" + c);
    SplitJoin(id, c);
    NoSlash(c);
  }

  /** Distinct endpoints never share a path: the path names both the endpoint
      kind and the job. */
  lemma PathInjective(e1: Endpoint, e2: Endpoint)
    requires '/' !in IdOf(e1) && '/' !in IdOf(e2)
    requires Path(e1) == Path(e2)
    ensures e1 == e2
  {
    RouteOfPath(e1);
    RouteOfPath(e2);
  }
}

=== FILE: poll.dfy ===
/** `poll_job` and `poll_job_query`: fetch the job's info, stop at the first
    snapshot whose state is final, otherwise sleep for the effective interval
    and fetch again. The service's successive answers are given as a trace;
    the loop has no bound of its own, so the trace must hold an answer that
    ends it. */
module Poll {
  import opened Base
  import opened Json
  import opened Transport
  import opened JobStates
  import opened Bulk

  /** An answer that ends the loop: a rejection (the GET raises), a snapshot
      without `state` (the lookup raises KeyError), or a final state. */
  predicate Stops(reply: Reply<JsonObject>)
    ensures !Stops(reply) <==> reply.Accepted? && StateOf(reply.body).Some?
                               && !(StateIs(reply.body, JobComplete) || StateIs(reply.body, Failed) || StateIs(reply.body, Aborted))
  {
    reply.Rejected? || "state" !in reply.body || IsTerminal(reply.body["state"])
  }

  /** What the poll returns on the answer that ended it. */
  function StopResult(reply: Reply<JsonObject>): (r: Result<JsonObject>)
    requires Stops(reply)
    ensures r.Ok? <==> reply.Accepted? && "state" in reply.body
    ensures r.Ok? ==> r.value == reply.body && IsTerminal(r.value["state"])
    ensures reply.Rejected? ==> r == Err(HttpError(reply.status))
    ensures reply.Accepted? && "state" !in reply.body ==> r == Err(KeyError("state"))
  {
    match reply
    case Rejected(s) => Err(HttpError(s))
    case Accepted(info) => if "state" in info then Ok(info) else Err(KeyError("state"))
  }

  /** `time.sleep` refuses a negative duration with ValueError. */
  const NegativeSleep: string := "sleep length must be non-negative"

  /** Some answer in the trace ends the loop. */
  predicate HasStop(trace: seq<Reply<JsonObject>>) {
    exists k :: 0 <= k < |trace| && Stops(trace[k])
  }

  /** A poll of `req` over `trace` with sleep duration `d` made `polls` info
      requests, the last of them on answer `polls - 1`:
      - every earlier answer was non-final, and the last one is final unless
        the sleep after it was refused (then it was the first answer);
      - the log alternates request, sleep, request, ..., request: `polls`
        requests and `polls - 1` sleeps of `d`, nothing after the last request;
      - the result is the final snapshot, or the error that ended the loop. */
  ghost predicate Polled(trace: seq<Reply<JsonObject>>, d: int, req: Request,
                         log: seq<Event>, result: Result<JsonObject>, polls: nat)
  {
    && 1 <= polls <= |trace|
    && (forall j :: 0 <= j < polls - 1 ==> !Stops(trace[j]))
    && (Stops(trace[polls - 1]) || d < 0)
    && (d < 0 ==> polls == 1)
    && |log| == 2 * polls - 1
    && (forall j :: 0 <= j < |log| ==> log[j] == if j % 2 == 0 then Sent(req) else Slept(d))
    && result == (if Stops(trace[polls - 1]) then StopResult(trace[polls - 1]) else Err(ValueError(NegativeSleep)))
  }

  /** The polling loop shared by both job families, on the info endpoint. */
  method Poll(c: BulkClient, endpoint: string, interval: Option<int>, trace: seq<Reply<JsonObject>>)
    returns (log: seq<Event>, result: Result<JsonObject>, polls: nat)
    requires |trace| > 0
    requires FinalInterval(c, interval) >= 0 ==> HasStop(trace)
    ensures Polled(trace, FinalInterval(c, interval), InfoRequest(c, endpoint), log, result, polls)
  {
    var d := FinalInterval(c, interval);
    var req := InfoRequest(c, endpoint);
    ghost var stop := 0;
    if d >= 0 {
      stop :| 0 <= stop < |trace| && Stops(trace[stop]);
    }
    log := [Sent(req)];
    polls := 1;
    while !Stops(trace[polls - 1]) && d >= 0
      invariant 1 <= polls <= |trace|
      invariant d < 0 ==> polls == 1
      invariant d >= 0 ==> polls - 1 <= stop < |trace| && Stops(trace[stop])
      invariant forall j :: 0 <= j < polls - 1 ==> !Stops(trace[j])
      invariant |log| == 2 * polls - 1
      invariant forall j :: 0 <= j < |log| ==> log[j] == if j % 2 == 0 then Sent(req) else Slept(d)
      decreases |trace| - polls
    {
      log := log + [Slept(d), Sent(req)];
      polls := polls + 1;
    }
    if Stops(trace[polls - 1]) {
      result := StopResult(trace[polls - 1]);
    } else {
      result := Err(ValueError(NegativeSleep));
    }
  }

  /** `poll_job`: polls `ingest/{id}`. */
  method PollJob(c: BulkClient, id: string, interval: Option<int>, trace: seq<Reply<JsonObject>>)
    returns (log: seq<Event>, result: Result<JsonObject>, polls: nat)
    requires |trace| > 0
    requires FinalInterval(c, interval) >= 0 ==> HasStop(trace)
    ensures Polled(trace, FinalInterval(c, interval), InfoRequest(c, "ingest/" + id), log, result, polls)
  {
    log, result, polls := Poll(c, Paths.Path(Paths.IngestInfo(id)), interval, trace);
  }

  /** `poll_job_query`: polls `query/{id}`. */
  method PollJobQuery(c: BulkClient, id: string, interval: Option<int>, trace: seq<Reply<JsonObject>>)
    returns (log: seq<Event>, result: Result<JsonObject>, polls: nat)
    requires |trace| > 0
    requires FinalInterval(c, interval) >= 0 ==> HasStop(trace)
    ensures Polled(trace, FinalInterval(c, interval), InfoRequest(c, "query/" + id), log, result, polls)
  {
    log, result, polls := Poll(c, Paths.Path(Paths.QueryInfo(id)), interval, trace);
  }

  /** The number of requests in a log. */
  function CountSent(log: seq<Event>): nat {
    if |log| == 0 then 0 else (if log[0].Sent? then 1 else 0) + CountSent(log[1..])
  }

  /** The number of sleeps in a log. */
  function CountSlept(log: seq<Event>): nat {
    if |log| == 0 then 0 else (if log[0].Slept? then 1 else 0) + CountSlept(log[1..])
  }

  /** An alternating log with `p` requests holds `p` requests and `p - 1`
      sleeps. */
  lemma {:induction false} AlternatingCounts(log: seq<Event>, req: Request, d: int, p: nat)
    requires p >= 1 && |log| == 2 * p - 1
    requires forall j :: 0 <= j < |log| ==> log[j] == if j % 2 == 0 then Sent(req) else Slept(d)
    ensures CountSent(log) == p && CountSlept(log) == p - 1
  {
    if p > 1 {
      var rest := log[2..];
      assert forall j :: 0 <= j < |rest| ==> rest[j] == log[j + 2];
      AlternatingCounts(rest, req, d, p - 1);
      assert log[1..][1..] == rest;
    }
  }

  /** The index of the first answer that ends the loop. */
  function FirstStop(trace: seq<Reply<JsonObject>>): (k: nat)
    requires HasStop(trace)
    ensures k < |trace| && Stops(trace[k])
    ensures forall j :: 0 <= j < k ==> !Stops(trace[j])
  {
    if Stops(trace[0]) then 0
    else
      assert HasStop(trace[1..]) by {
        var k :| 0 <= k < |trace| && Stops(trace[k]);
        assert trace[1..][k - 1] == trace[k];
      }
      1 + FirstStop(trace[1..])
  }

  /** With a non-negative interval the poll ends exactly at the first answer
      that stops it, and returns what that answer says. */
  lemma PollEndsAtFirstStop(trace: seq<Reply<JsonObject>>, d: int, req: Request,
                            log: seq<Event>, result: Result<JsonObject>, polls: nat)
    requires Polled(trace, d, req, log, result, polls)
    requires d >= 0
    ensures HasStop(trace)
    ensures polls == FirstStop(trace) + 1
    ensures result == StopResult(trace[FirstStop(trace)])
  {
    assert Stops(trace[polls - 1]);
    var k := FirstStop(trace);
    assert k >= polls - 1 && k <= polls - 1;
  }

  /** The log of a poll holds one request per poll and one sleep between
      consecutive polls, and ends on a request. */
  lemma PollLogCounts(trace: seq<Reply<JsonObject>>, d: int, req: Request,
                      log: seq<Event>, result: Result<JsonObject>, polls: nat)
    requires Polled(trace, d, req, log, result, polls)
    ensures CountSent(log) == polls && CountSlept(log) == polls - 1
    ensures log[|log| - 1] == Sent(req)
  {
    assert |log| == 2 * polls - 1;
    assert forall j :: 0 <= j < |log| ==> log[j] == if j % 2 == 0 then Sent(req) else Slept(d);
    AlternatingCounts(log, req, d, polls);
    var last := |log| - 1;
    assert last == 2 * (polls - 1);
    assert last % 2 == 0;
  }

  /** With a non-negative interval, over a trace whose first final answer is
      at index k, the poll makes exactly k + 1 info requests and k sleeps,
      and returns what that answer says. */
  lemma PollCounts(trace: seq<Reply<JsonObject>>, d: int, req: Request,
                   log: seq<Event>, result: Result<JsonObject>, polls: nat)
    requires Polled(trace, d, req, log, result, polls)
    requires d >= 0
    ensures HasStop(trace)
    ensures CountSent(log) == FirstStop(trace) + 1 && CountSlept(log) == FirstStop(trace)
    ensures result == StopResult(trace[FirstStop(trace)])
  {
    PollEndsAtFirstStop(trace, d, req, log, result, polls);
    PollLogCounts(trace, d, req, log, result, polls);
  }

  /** A negative interval ends the poll at the first answer: the snapshot if
      it is final, otherwise the ValueError of the refused sleep. */
  lemma NegativeIntervalStopsAtOnce(trace: seq<Reply<JsonObject>>, d: int, req: Request,
                                    log: seq<Event>, result: Result<JsonObject>, polls: nat)
    requires Polled(trace, d, req, log, result, polls)
    requires d < 0
    ensures polls == 1 && log == [Sent(req)]
    ensures !Stops(trace[0]) ==> result == Err(ValueError(NegativeSleep))
  {
  }

  /** The poll's outcome is determined by the trace: two runs over the same
      answers log the same events and return the same result. */
  lemma PolledIsDeterministic(trace: seq<Reply<JsonObject>>, d: int, req: Request,
                              log1: seq<Event>, result1: Result<JsonObject>, polls1: nat,
                              log2: seq<Event>, result2: Result<JsonObject>, polls2: nat)
    requires Polled(trace, d, req, log1, result1, polls1)
    requires Polled(trace, d, req, log2, result2, polls2)
    ensures polls1 == polls2 && log1 == log2 && result1 == result2
  {
    if d >= 0 {
      PollEndsAtFirstStop(trace, d, req, log1, result1, polls1);
      PollEndsAtFirstStop(trace, d, req, log2, result2, polls2);
    }
    assert |log1| == |log2|;
    assert forall j :: 0 <= j < |log1| ==> log1[j] == log2[j];
  }
}

=== FILE: states.dfy ===
/** Job states. The service defines an open set of state strings; the client
    recognises exactly three of them as final. */
module JobStates {
  import opened Base
  import opened Json

  const Aborted: string := "Aborted"
  const JobComplete: string := "JobComplete"
  const Failed: string := "Failed"

  /** The state values after which the client stops polling. Any other value,
      an unknown string or a value that is not a string at all, is not final. */
  predicate IsTerminal(v: Value)
    ensures IsTerminal(v) <==> v.VString? && v.s in {Aborted, JobComplete, Failed}
  {
    v == VString(Aborted) || v == VString(JobComplete) || v == VString(Failed)
  }

  /** The snapshot's `state` entry, as `info.get("state")` returns it. */
  function StateOf(info: JsonObject): (r: Option<Value>)
    ensures r.Some? <==> "state" in info
    ensures r.Some? ==> r.value == info["state"]
  {
    if "state" in info then Some(info["state"]) else None
  }

  /** `info.get("state") == name`: false whenever the entry is absent. */
  predicate StateIs(info: JsonObject, name: string) {
    StateOf(info) == Some(VString(name))
  }

  /** A snapshot is final exactly when its state is one of the three names,
      and then it is exactly one of them. */
  lemma TerminalIsOneOfThree(info: JsonObject)
    ensures ("state" in info && IsTerminal(info["state"]))
        <==> (StateIs(info, JobComplete) || StateIs(info, Failed) || StateIs(info, Aborted))
    ensures !(StateIs(info, JobComplete) && StateIs(info, Failed))
    ensures !(StateIs(info, JobComplete) && StateIs(info, Aborted))
    ensures !(StateIs(info, Failed) && StateIs(info, Aborted))
  {
  }
}

=== FILE: transport.dfy ===
/** The bulk client's configuration and its one road to the network,
    `_make_request`, over an abstract transport: requests are recorded in a
    log and the server's answers are supplied as parameters. */
module Transport {
  import opened Base

  datatype HttpMethod = GET | POST | PUT | PATCH

  /** A request body: a JSON object of strings, or CSV text sent as bytes. */
  datatype Body = NoBody | JsonBody(fields: map<string, string>) | CsvBody(text: string)

  datatype Request = Request(verb: HttpMethod, url: string, headers: map<string, string>, timeout: int, body: Body)

  /** What the client does that the outside world can observe. */
  datatype Event = Sent(request: Request) | Slept(seconds: int)

  /** The server's answer to one request: accepted with a body, or rejected
      with a status that `raise_for_status` turns into an exception. */
  datatype Reply<+T> = Accepted(body: T) | Rejected(status: int)

  /** One client operation: the events it caused and what it returned. */
  datatype Call<+T> = Call(log: seq<Event>, result: Result<T>)

  const DefaultInterval: int := 5
  const DefaultTimeout: int := 30

  /** An `SfBulk`: base URL and headers taken from the connected client, the
      default polling interval and the request timeout. Immutable: no
      operation below returns a changed client. */
  datatype BulkClient = BulkClient(bulk2Url: string, headers: map<string, string>, interval: int, timeout: int)

  /** `SfBulk(sf, interval, timeout)`: the connected client's base URL and
      headers, with the polling interval and timeout given or defaulted. */
  function NewBulkClient(bulk2Url: string, headers: map<string, string>,
                         interval: int := DefaultInterval, timeout: int := DefaultTimeout): (c: BulkClient)
    ensures c.interval == interval && c.timeout == timeout
    ensures c.bulk2Url == bulk2Url && c.headers == headers
  {
    BulkClient(bulk2Url, headers, interval, timeout)
  }

  /** Without the optional arguments the client polls every 5 seconds and
      times requests out after 30. */
  lemma NewBulkClientDefaults(bulk2Url: string, headers: map<string, string>)
    ensures NewBulkClient(bulk2Url, headers).interval == 5
    ensures NewBulkClient(bulk2Url, headers).timeout == 30
  {
  }

  /** The polling interval actually used: the argument when one is given
      (0 included), the client's default otherwise. */
  function FinalInterval(c: BulkClient, interval: Option<int>): (d: int)
    ensures interval.Some? ==> d == interval.value
    ensures interval.None? ==> d == c.interval
  {
    match interval
    case Some(i) => i
    case None => c.interval
  }

  /** The per-call headers laid over a copy of the defaults: a per-call value
      wins, every other default is kept, and nothing else appears. */
  function Overlay(defaults: map<string, string>, extra: map<string, string>): (h: map<string, string>)
    ensures h.Keys == defaults.Keys + extra.Keys
    ensures forall k :: k in extra ==> h[k] == extra[k]
    ensures forall k :: k in defaults && k !in extra ==> h[k] == defaults[k]
    ensures extra == map[] ==> h == defaults
  {
    defaults + extra
  }

  /** The request `_make_request` issues for `endpoint`. */
  function MakeRequest(c: BulkClient, verb: HttpMethod, endpoint: string, extra: map<string, string>, body: Body): (r: Request)
    ensures r.url == c.bulk2Url + endpoint
    ensures r.headers == Overlay(c.headers, extra)
    ensures r.verb == verb && r.body == body && r.timeout == c.timeout
  {
    Request(verb, c.bulk2Url + endpoint, Overlay(c.headers, extra), c.timeout, body)
  }

  /** Issue one request and hand back the server's answer: an accepted body
      unchanged, a rejection as the HttpError carrying its status. */
  function Send<T>(req: Request, reply: Reply<T>): (r: Call<T>)
    ensures r.log == [Sent(req)]
    ensures reply.Accepted? ==> r.result == Ok(reply.body)
    ensures reply.Rejected? ==> r.result == Err(HttpError(reply.status))
  {
    match reply
    case Accepted(b) => Call([Sent(req)], Ok(b))
    case Rejected(s) => Call([Sent(req)], Err(HttpError(s)))
  }
}
